=== FILE: README.md ===
# Image-generation proxies, modelled in Dafny

The repository holds two small HTTP front ends for text-to-image services.

- **`image-generator.js`** is a Cloudflare worker. It has five routes:
  - `/` and the empty path answer 400 with a usage hint.
  - `/models` lists the three models.
  - `/generate?prompt=…&model=…` checks the method, the presence of both parameters, the prompt length and the model, in that order. Then it either:
    - redirects `flux` to `image.pollinations.ai`, with the prompt passed through `encodeURIComponent`; or
    - posts a hand-built `multipart/form-data` body to magicstudio or creart and returns the image bytes.
  - `/image` checks only the method and the presence of both parameters, then redirects `flux` and refuses every other model.
  - Every other path is 404.
  - Every JSON reply except the `/models` listing is built by `jsonRes`, which spreads the caller's extra fields and then the developer attribution over `{status_code, message}`. The `/models` reply builds its own body, `{status_code: 200, available_models, ...DEV_INFO}`, with no `message` key.
- **`main.py`** is a FastAPI service. `GET /generate?prompt=…`:
  1. rejects a blank prompt with 400;
  2. downloads a `flux-realism` image from pollinations, with the prompt passed through `urllib.parse.quote`;
  3. re-uploads the image to catbox.moe;
  4. answers with both URLs.

  Every failure after validation is a 500 whose detail is `"Error: " + str(e)`.

The model is a set of pure functions.

- Time, randomness and the remote services are parameters:
  - `WorkerUpstream.Entropy` carries the boundary suffix, the UUID, the timestamp and the 32 `client_id` octets;
  - `WorkerUpstream.FetchOutcome`, `CatboxRelay.GeneratorOutcome` and `CatboxRelay.UploadOutcome` carry what the remote side answered.
- A handler's result records the outbound calls it made, so the order of calls is part of the result:
  - `WorkerRouter.Serve` returns an `Exchange`;
  - `CatboxRelay.GenerateAndUpload` returns `Handled`.
- Strings are sequences of Unicode scalar values. Bytes are integers below 256.

| module | file | models |
|---|---|---|
| `Wrappers` | wrappers.dfy | `Option`, `Result` |
| `Text` | text.dfy | `String.prototype.trim` and Python's `str.strip()` with their own whitespace tables; UTF-16 length (`prompt.length`) |
| `Utf8` | utf8.dfy | UTF-8 encoding of a string (RFC 3629) and its strict decoder |
| `PercentEncoding` | percent_encoding.dfy | `encodeURIComponent` and `quote(s, safe='/')` as escapers over UTF-8 bytes, and percent-decoding |
| `Base64` | base64.dfy | `btoa(String.fromCharCode(...))` followed by the `+`→`-`, `/`→`_` and `=+$` rewrites that build `client_id` (RFC 4648) |
| `Json` | json.dfy | JavaScript objects as insertion-ordered members; property definition and object spread |
| `Multipart` | multipart.dfy | the parts and framing `createFormData` writes |
| `WorkerReplies` | worker_replies.dfy | `jsonRes`, `imgRes`, the `/models` body |
| `WorkerUpstream` | worker_upstream.dfy | `createFormData` field layouts and `generateImage` |
| `WorkerRouter` | worker_router.dfy | `handleRequest` |
| `CatboxRelay` | catbox_relay.dfy | `generate_and_upload` and `upload_to_catbox` |

Behaviour worth noting:

- The worker answers a failed `generateImage` with **400**, as `jsonRes`'s default code, not 500.
- There is no separate timeout message: the 60-second abort is one more rejection of the `fetch`.
- `/models` answers 200 whatever the method or query.
- The prompt length limit admits exactly 2000 UTF-16 units, although the message says "less than 2000".

## Model

| member | source | states |
|---|---|---|
| WorkerReplies.JsonRes | image-generator.js:11-17 | the HTTP status is `code`; `status_code` and `message` hold `code` and `msg` unless `extra` redefines them; an extra key that is not one of the attribution keys keeps its last value in `extra`; `developer` and `telegram_channel` always hold the attribution, whatever `extra` says |
| WorkerReplies.DevInfoWins | image-generator.js:12 | spreading `DEV_INFO` last overrides any earlier `developer`/`telegram_channel` and leaves every other key as it was |
| WorkerReplies.ModelsResponse | image-generator.js:94-99 | the `/models` reply is 200, with `status_code` 200, `available_models` exactly `["flux","magicstudio","creart-ai"]` and both attribution keys |
| WorkerReplies.ImgRes | image-generator.js:19-21 | the image reply is status 200 and carries the upstream bytes unchanged |
| Json.Get | image-generator.js:12 | a key is found exactly when it is one of the object's keys |
| Json.GetFirst | image-generator.js:12 | a lookup returns the value of the first member with that key |
| Json.Set | image-generator.js:12 | after defining `k` as `v`, `k` reads `v` and every other key reads what it read before |
| Json.SetKeys | image-generator.js:12 | defining an existing key keeps the key order; defining a new key appends it |
| Json.SpreadLength | image-generator.js:12 | spreading never loses a key of the base object and adds at most one key per spread entry |
| Json.SpreadGet | image-generator.js:12 | after `{...m, ...extra}` a key absent from `extra` reads as in `m`, and a key present reads its last value in `extra` |
| Json.SpreadKeepsOldKeys | image-generator.js:12 | spreading keeps the base object's keys, in their order, ahead of any new ones |
| Multipart.CreateFormData | image-generator.js:43-50 | the content type is `multipart/form-data; boundary=` followed by the boundary; the body is exactly the joined parts followed by the close delimiter `--B--\r\n`, so it starts with `--B\r\n` when there are fields |
| Multipart.PartAt | image-generator.js:43-48 | field `i`'s part, `--B\r\nContent-Disposition: form-data; name="k"\r\n\r\nv\r\n`, sits in the body at the summed length of the parts before it |
| Multipart.PartInParts | image-generator.js:43-48 | within the joined parts, field `i`'s part sits right after the parts of the fields before it |
| Multipart.PartsAppend | image-generator.js:43-48 | the joined parts of two field lists are the concatenation of their joined parts |
| Multipart.ValueCanForgeField | image-generator.js:43-48 | values are written unescaped: a value holding `\r\n--B\r\nContent-Disposition…` yields a body identical to a form with an extra field |
| WorkerUpstream.MagicFields | image-generator.js:25-33 | the magic layout has seven fields, the prompt first and `client_id` last, with `client_id` the unpadded URL-safe base64 of the random octets |
| WorkerUpstream.CreartFields | image-generator.js:34-41 | the creart layout has six fields with the prompt first |
| WorkerUpstream.CreateFormData | image-generator.js:23-51 | the form's content type names the boundary its body is framed with; the body opens with the prompt's part and ends with the close delimiter, for either layout |
| WorkerUpstream.GeneratorRequest | image-generator.js:53-68 | the request goes to the magicstudio endpoint exactly for `magicstudio` and to the creart endpoint exactly for `creart-ai`; its content type names its boundary and its body opens with the prompt's part |
| WorkerUpstream.MagicstudioUsesMagicFields | image-generator.js:53-68 | `magicstudio` posts the magic layout to the magicstudio endpoint, and its `client_id` contains no `+`, `/` or `=` |
| WorkerUpstream.CreartUsesCreartFields | image-generator.js:53-68 | `creart-ai` posts the creart layout to the creart endpoint |
| WorkerUpstream.GeneratorResult | image-generator.js:80-81 | `generateImage` yields bytes exactly when the fetch answered with a 2xx status, and the bytes are the response body |
| Base64.ClientId | image-generator.js:32-33 | `btoa` cannot fail on `String.fromCharCode` of octets; `btoa` plus the three rewrites equals the unpadded URL-safe base64 encoding of the octets |
| Base64.BtoaOfOctets | image-generator.js:32 | `btoa(String.fromCharCode(...octets))` is the standard padded base64 of the octets |
| Base64.RewriteIsUrlAlphabet | image-generator.js:33 | the `+`/`/` rewrites and stripping the trailing `=` run turn standard padded base64 into the unpadded URL-safe alphabet |
| Base64.FromCharCodes | image-generator.js:32 | `String.fromCharCode(...octets)` has one character per octet, each with the octet's value as its code |
| Base64.UrlEncodeNoPad | image-generator.js:32-33 | the unpadded URL-safe encoding of `n` octets has `ceil(4n/3)` characters, each a URL-safe base64 digit |
| Base64.Btoa | image-generator.js:32 | `btoa` succeeds exactly when every character is below U+0100 |
| Base64.StdEncode | image-generator.js:32 | padded base64 has length `4*ceil(n/3)` |
| Base64.StripTrailingEquals | image-generator.js:33 | the result is a prefix, only `=` was removed, and it does not end in `=` |
| Base64.ClientIdAlphabet | image-generator.js:32-33 | every `client_id` character is a URL-safe base64 digit; none is `+`, `/` or `=` |
| Base64.ClientIdLength | image-generator.js:32-33 | 32 random octets always give 43 characters |
| Base64.UrlRoundTrip | image-generator.js:32-33 | decoding the unpadded URL-safe encoding gives the original octets back |
| Base64.ClientIdInjective | image-generator.js:32-33 | different random octets give different `client_id`s |
| WorkerRouter.HandleRequest | image-generator.js:84-155 | a generator call happens only on `/generate`, for `magicstudio` or `creart-ai`, with a non-empty trimmed prompt of at most 2000 UTF-16 units and no surrounding whitespace; every immediate reply has status 302, 200, 400 or 404 |
| WorkerRouter.RootGivesUsage | image-generator.js:88-92 | `/` and the empty path answer 400 with `status_code` 400, the parameters-required message and the usage hint, whatever the method or query |
| WorkerRouter.ModelsListing | image-generator.js:94-99 | `/models` answers 200 with the three models, whatever the method or query |
| WorkerRouter.UnknownPathNotFound | image-generator.js:154 | any other path answers 404 `Not Found` |
| WorkerRouter.GenerateDecision | image-generator.js:101-126 | a non-GET request is refused with the method message; a refusal carries one of the four fixed messages; whatever passes has a non-empty trimmed prompt of at most 2000 UTF-16 units and a listed model; it redirects exactly for `flux` and otherwise calls a generator model |
| WorkerRouter.ImageDecision | image-generator.js:134-151 | `/image` never calls a generator; a non-GET request is refused with the method message; it redirects exactly for a GET with a non-empty trimmed prompt and the model `flux`; a refusal carries one of its three fixed messages |
| WorkerRouter.GenerateFollowsCheckOrder | image-generator.js:101-126 | on `/generate` the first failing check among method, presence, length and membership gives the 400 and its message; when all pass, `flux` redirects and any other model calls its generator |
| WorkerRouter.ImageFollowsCheckOrder | image-generator.js:134-151 | on `/image` the first failing check among method and presence gives the 400; when both pass, `flux` redirects and any other model gets the flux-only 400 |
| WorkerRouter.MethodCheckedFirst | image-generator.js:101-137 | a non-GET request to either route is refused with "Only GET requests are allowed" before the parameters are read |
| WorkerRouter.TruthyTrimmed | image-generator.js:106-110 | the trimmed prompt is truthy exactly when the parameter is present and not all JavaScript whitespace, that is when the trimmed text is non-empty; the model is truthy exactly when it is present and non-empty |
| WorkerRouter.PromptTextHasNoPadding | image-generator.js:106 | the prompt after `?.trim()` is empty or neither starts nor ends with JavaScript whitespace |
| WorkerRouter.LengthLimitIsInclusive | image-generator.js:113-115 | a valid `flux` request is refused as too long exactly when the trimmed prompt has more than 2000 UTF-16 units; at 2000 it redirects |
| WorkerRouter.FluxImageUrl | image-generator.js:122-124 | the redirect URL is prefix, encoded prompt, fixed query; the encoded prompt contains no `/`, `?`, `&` or `#` and percent-decodes to the prompt |
| WorkerRouter.FluxMakesNoUpstreamCall | image-generator.js:122-125 | a `flux` request on `/generate` is a 302 to the pollinations URL and makes no upstream POST |
| WorkerRouter.UpstreamOutcomeMapping | image-generator.js:53-131 | a `magicstudio`/`creart-ai` request posts that model's form to its endpoint; a 2xx answer gives the image; a non-2xx answer, a network error or the timeout gives the fixed 400 |
| WorkerRouter.GeneratorCallServed | image-generator.js:126-131 | a `/generate` request that passes every check posts its model's form built from the trimmed prompt, and its response is what the `try` block makes of the fetch outcome |
| WorkerRouter.AfterGenerator | image-generator.js:127-131 | the response is the image exactly when the fetch answered 2xx; otherwise it is the generation-failed 400 |
| WorkerRouter.Serve | image-generator.js:84-155 | an upstream POST is made exactly when the handler reaches the generator call |
| WorkerRouter.ImageSkipsTwoChecks | image-generator.js:142-151 | `/image` applies no length or membership check: `flux` redirects and any other non-empty model gets the flux-only 400 |
| WorkerRouter.RoutesAgreeOnFlux | image-generator.js:122-149 | whenever `/generate` redirects, `/image` redirects to the same URL |
| WorkerRouter.OverlongPromptOnlyRedirectsOnImage | image-generator.js:113-148 | a 2001-letter `flux` prompt is refused by `/generate` and redirected by `/image` |
| WorkerRouter.JsonRepliesCarryStatus | image-generator.js:11-155 | every JSON reply carries `status_code` equal to its HTTP status, plus `developer` and `telegram_channel` |
| WorkerRouter.DecisionRepliesCarryStatus | image-generator.js:101-151 | a refusal of either route and the failed-generation reply carry `status_code` equal to their status and both attribution keys |
| WorkerRouter.JoinModels | image-generator.js:118 | the invalid-model message lists `flux, magicstudio, creart-ai` |
| Text.Trim | image-generator.js:106 | the trimmed string is empty or starts and ends with a non-whitespace character |
| Text.TrimBounds | image-generator.js:106 | only whitespace lies outside the kept slice, and the slice's end characters are not whitespace |
| Text.TrimEmptyIffAllSpace | main.py:34 | stripping gives the empty string exactly when every character is whitespace |
| Text.TrimIsSlice | image-generator.js:106 | the trimmed string is a contiguous slice of the input with only whitespace around it |
| Text.TrimKeepsUnpadded | image-generator.js:106 | a string that neither starts nor ends with whitespace is unchanged |
| Text.TrimIdempotent | main.py:34 | trimming twice is trimming once |
| Text.Utf16Length | image-generator.js:113 | the UTF-16 length lies between the number of characters and twice it, and equals it exactly when no character is outside the BMP |
| Text.Utf16Char | image-generator.js:113 | a BMP character is one code unit equal to its code point; any other is a high surrogate followed by a low surrogate that together give back the code point |
| Text.Utf16LengthCountsUnits | image-generator.js:113 | `.length` is exactly the number of UTF-16 code units of the string |
| Text.Utf16LengthAppend | image-generator.js:113 | the UTF-16 length of a concatenation is the sum of the lengths |
| Utf8.EncodeChar | image-generator.js:123 | a character encodes to 1-4 bytes; ASCII to itself; every byte after the first is a continuation byte |
| Utf8.Encode | image-generator.js:123 | a string of `n` characters encodes to between `n` and `4n` bytes |
| Utf8.EncodeAppend | image-generator.js:123 | the encoding of a concatenation is the concatenation of the encodings |
| Utf8.DecodeEncode | image-generator.js:123 | decoding the UTF-8 encoding of a string gives the string back |
| Utf8.EncodeInjective | main.py:39 | different strings have different UTF-8 encodings |
| PercentEncoding.Encode | image-generator.js:123 | a string of `n` characters gives between `n` and `12n` output characters, and every output character is `%`, an uppercase hex digit or an ASCII character that escaper leaves unescaped |
| PercentEncoding.UnchangedIffAllCopied | main.py:39 | an escaper leaves a string unchanged exactly when every character is ASCII and one it does not escape |
| PercentEncoding.CopiedHead | main.py:39 | a first character the escaper copies is the first output character, as is |
| PercentEncoding.EscapedHeadGrows | main.py:39 | a first character the escaper does not copy makes the output longer than the input |
| PercentEncoding.EncodeAround | main.py:39 | the output is the encoded prefix, the escaped bytes of the character at `i`, and the encoded suffix |
| PercentEncoding.EscapeBytes | image-generator.js:123 | every output character is `%`, an uppercase hex digit or a character that escaper leaves unescaped |
| PercentEncoding.ComponentIsOneSegment | image-generator.js:123 | `encodeURIComponent` output contains no `/`, `?`, `&` or `#` |
| PercentEncoding.QuoteKeepsQueryDelimitersOut | main.py:39 | `quote` output contains no `?`, `&` or `#`, and a `/` at input position `i` sits unescaped in the output right after the encoding of the first `i` characters |
| PercentEncoding.SlashSurvivesQuote | main.py:39 | a `/` at input position `i` splits `quote`'s output into the encoded prefix, a literal `/` and the encoded suffix |
| PercentEncoding.DecodeEncode | main.py:39 | percent-decoding the output of either escaper gives the original string |
| PercentEncoding.EncodeInjective | main.py:39 | either escaper maps different strings to different outputs |
| PercentEncoding.EscapersAgreeIff | image-generator.js:123 | `encodeURIComponent` and `quote` agree on a string exactly when it contains none of `/ ! * ' ( )` |
| PercentEncoding.DotSegmentsSurvive | main.py:39 | both escapers leave `..` unchanged, and `quote` leaves `a/../b` unchanged, so such prompts reach the URL as dot path segments |
| PercentEncoding.SlashExample | main.py:39 | `a/b` is `a%2Fb` under `encodeURIComponent` and `a/b` under `quote` |
| PercentEncoding.ParenQuoteExample | main.py:39 | `quote` escapes `(a)!` to `%28a%29%21` |
| PercentEncoding.ParenComponentExample | image-generator.js:123 | `encodeURIComponent` leaves `(a)!` unchanged |
| CatboxRelay.UploadToCatbox | main.py:15-26 | the upload succeeds exactly on status 200, with the stripped response text; any other status raises "Error al subir a Catbox" |
| CatboxRelay.IsBlank | main.py:34 | the prompt counts as blank exactly when every character is Python whitespace, the empty prompt included |
| CatboxRelay.GenerateAndUpload | main.py:32-68 | the reply status is 200, 400 or 500, and at most two outbound calls are made |
| CatboxRelay.ValidationBeforeAnyCall | main.py:33-35 | the reply is 400 exactly when the prompt is missing, empty or whitespace-only; it then carries the fixed detail and no call is made |
| CatboxRelay.GeneratorUrlIsFirstCall | main.py:39-45 | past validation the first call is a GET of the pollinations URL built from the untrimmed prompt |
| CatboxRelay.GeneratorFailureSkipsUpload | main.py:44-68 | a non-2xx download or a raised download ends in a 500 `Error: …` after the GET alone, with no upload |
| CatboxRelay.UploadCarriesDownloadedBytes | main.py:15-51 | for a request that does not share its temporary file with another, after a 2xx download the second call posts exactly the downloaded bytes to catbox with `reqtype=fileupload`; a non-200 upload gives 500 `Error: Error al subir a Catbox` |
| CatboxRelay.SuccessBodyFields | main.py:56-61 | the success body carries `status_code` 200, the fixed message, the prompt, the generation URL and the catbox URL |
| CatboxRelay.SuccessShape | main.py:32-65 | the reply is 200 exactly when the prompt is not blank, the download is 2xx and the upload is 200; the body echoes the prompt unmodified, the URL string handed to the GET and the stripped catbox text |
| CatboxRelay.GeneratorUrl | main.py:39-40 | the URL is prefix, quoted prompt, fixed query; the quoted part has no `?`, `&` or `#` and percent-decodes to the prompt |
| CatboxRelay.SlashSplitsGeneratorPath | main.py:39-40 | for any prompt with a `/` at position `i`, the generator URL is prefix, quoted prefix of the prompt, a literal `/`, quoted rest, fixed query, so the prompt spans several path segments |

## Left out

- Real HTTP is not modelled: sockets, CORS and `Content-Type` response headers, and the `accept`, `user-agent`, `origin` and `referer` request headers. A response is its status and body.
- Timeouts are not modelled separately: the worker's 60 s abort and httpx's 60 s and 300 s timeouts are just one more failed outcome of the call.
- URL parsing is not modelled. `new URL(...)`, `searchParams.get` and FastAPI's query parsing are taken as already done: the request carries the path and the decoded query values. A lone surrogate, which query decoding replaces, cannot be written in the model.
- `Response.redirect` serialisation is not modelled: the `Location` is the string built, unchanged.
- WorkerRouter.FluxImageUrl: the one-segment, decodes-to-the-prompt property holds for the URL string built at image-generator.js:123, not for the `Location` sent. `Response.redirect` parses that string with the WHATWG URL parser, which removes dot path segments. The prompt `..` becomes `https://image.pollinations.ai/?model=flux&…`, and `.` becomes `…/prompt/?model=…`, so in both the prompt is lost. URL parsing is outside the model; `PercentEncoding.DotSegmentsSurvive` shows that such prompts reach the string unescaped.
- CatboxRelay.GeneratorUrl: the property holds for the string handed to the GET, not for the path httpx requests. httpx parses the URL and removes dot segments, so the prompt `a/../b` fetches `/prompt/b` while the success body echoes `…/prompt/a/../b`. URL parsing is outside the model.
- `Math.random().toString(36)`, `crypto.randomUUID()`, `Date.now()` with `toFixed(3)` and `crypto.getRandomValues` are not modelled; their results come in as the `Entropy` parameter.
- `JSON.stringify` and the JSON text of bodies are not modelled: a body is its ordered member list.
- The upstream JSON of the generators is not modelled: the worker passes the body bytes through unchanged.
- CatboxRelay.GenerateAndUpload: the temporary file under `temp_images/`, its `hash(prompt)` name and the `file_size_kb` field are left out, because they depend on the disk and on Python's per-process hash seed. The upload carries the downloaded bytes directly.
- CatboxRelay.UploadCarriesDownloadedBytes: holds only for a request whose temporary file no other request touches. Two concurrent requests with the same prompt share `temp_images/{hash(prompt)}.png` and can upload each other's bytes. A failed `aiofiles` open or write, which gives a 500 before any POST, is also outside the model. Both depend on the disk and on concurrency, which the model does not represent.
- CatboxRelay.GenerateAndUpload: the text of exceptions raised by httpx, including `raise_for_status`'s message, is taken as a parameter, because it is produced by a library outside this model.
- The Python `root()` banner at `/` is left out: it is a constant reply with no logic.
- WorkerUpstream.CreartFields: `guidance_scale: 9.5` is written as the text `9.5`, which is what the template literal produces; number-to-string conversion is not modelled in general.
- The `addEventListener('fetch')` wiring is left out: it only hands the request to `handleRequest`.

=== FILE: base64.dfy ===
/**
 * The worker's `client_id`: 32 random octets turned into text by
 * `String.fromCharCode` and `btoa` (standard base64 with `=` padding,
 * section 4 of RFC 4648), then rewritten with `+` to `-`, `/` to `_` and the
 * trailing `=` run removed. The rewrite yields the URL- and filename-safe
 * alphabet of section 5 of RFC 4648 without the padding section 3.2 lets a
 * specification omit.
 */
module Base64 {
  import opened Wrappers
  import opened Utf8

  /** Sextet `d` in the standard alphabet (Table 1 of RFC 4648). */
  function StdDigit(d: int): char
    requires 0 <= d < 64
  {
    if d < 26 then ('A' as int + d) as char
    else if d < 52 then ('a' as int + d - 26) as char
    else if d < 62 then ('0' as int + d - 52) as char
    else if d == 62 then '+'
    else '/'
  }

  /** Sextet `d` in the URL- and filename-safe alphabet (Table 2 of RFC 4648). */
  function UrlDigit(d: int): char
    requires 0 <= d < 64
  {
    if d < 62 then StdDigit(d) else if d == 62 then '-' else '_'
  }

  /** The sextet a character of the URL-safe alphabet stands for. */
  function UrlDigitValue(c: char): Option<Sextet> {
    if 'A' <= c <= 'Z' then Some(c as int - 'A' as int)
    else if 'a' <= c <= 'z' then Some(c as int - 'a' as int + 26)
    else if '0' <= c <= '9' then Some(c as int - '0' as int + 52)
    else if c == '-' then Some(62)
    else if c == '_' then Some(63)
    else None
  }

  /** A 6-bit group value. */
  type Sextet = v: int | 0 <= v < 64

  /**
   * The input cut into 6-bit groups, most significant bit first, the last
   * group filled with zero bits (section 4 of RFC 4648).
   */
  function Sextets(bs: seq<Byte>): (r: seq<Sextet>)
    ensures |r| == (4 * |bs| + 2) / 3
  {
    if |bs| == 0 then []
    else if |bs| == 1 then
      [bs[0] / 4, (bs[0] % 4) * 16]
    else if |bs| == 2 then
      [bs[0] / 4, (bs[0] % 4) * 16 + bs[1] / 16, (bs[1] % 16) * 4]
    else Group(bs[0], bs[1], bs[2]) + Sextets(bs[3..])
  }

  /** Three octets as four sextets. */
  function Group(b0: Byte, b1: Byte, b2: Byte): seq<Sextet> {
    [b0 / 4, (b0 % 4) * 16 + b1 / 16, (b1 % 16) * 4 + b2 / 64, b2 % 64]
  }

  function StdDigits(vs: seq<Sextet>): (r: string)
    ensures |r| == |vs|
    ensures forall i :: 0 <= i < |vs| ==> r[i] == StdDigit(vs[i])
  {
    if vs == [] then [] else [StdDigit(vs[0])] + StdDigits(vs[1..])
  }

  /** The `=` characters that complete the last 4-character quantum. */
  function Padding(n: nat): string {
    if n % 3 == 1 then "==" else if n % 3 == 2 then "=" else ""
  }

  /** Standard base64 with padding (section 4 of RFC 4648). */
  function StdEncode(bs: seq<Byte>): (r: string)
    ensures |r| % 4 == 0
    ensures |r| == 4 * ((|bs| + 2) / 3)
  {
    PaddedLength(|bs|);
    StdDigits(Sextets(bs)) + Padding(|bs|)
  }

  /** The sextets of `n` octets and their padding fill whole 4-character quanta. */
  lemma PaddedLength(n: nat)
    ensures (4 * n + 2) / 3 + |Padding(n)| == 4 * ((n + 2) / 3)
  {
    var q, m := n / 3, n % 3;
    assert n == 3 * q + m && 0 <= m < 3;
    if m == 0 {
      DivExact(4 * q, 2, 4 * n + 2);
      DivExact(q, 2, n + 2);
      assert |Padding(n)| == 0;
    } else if m == 1 {
      DivExact(4 * q + 2, 0, 4 * n + 2);
      DivExact(q + 1, 0, n + 2);
      assert |Padding(n)| == 2;
    } else {
      DivExact(4 * q + 3, 1, 4 * n + 2);
      DivExact(q + 1, 1, n + 2);
      assert |Padding(n)| == 1;
    }
  }

  lemma DivExact(k: int, r: int, x: int)
    requires 0 <= r < 3 && x == 3 * k + r
    ensures x / 3 == k
  {
  }

  /** URL- and filename-safe base64 without padding (sections 5 and 3.2 of RFC 4648): the reference for `client_id`. */
  function UrlEncodeNoPad(bs: seq<Byte>): (r: string)
    ensures |r| == (4 * |bs| + 2) / 3
    ensures forall i :: 0 <= i < |r| ==> UrlDigitValue(r[i]).Some?
  {
    var vs := Sextets(bs);
    seq(|vs|, i requires 0 <= i < |vs| => UrlDigit(vs[i]))
  }

  /** `String.fromCharCode(...bytes)`: one UTF-16 unit per octet, each below U+0100. */
  function FromCharCodes(bs: seq<Byte>): (s: string)
    ensures |s| == |bs|
    ensures forall i :: 0 <= i < |bs| ==> s[i] as int == bs[i]
  {
    seq(|bs|, i requires 0 <= i < |bs| => bs[i] as char)
  }

  /** `btoa`: base64 of the string's code units, or an `InvalidCharacterError` when one is above U+00FF. */
  function Btoa(s: string): (r: Option<string>)
    ensures r.Some? <==> forall i :: 0 <= i < |s| ==> s[i] as int < 0x100
  {
    if forall i :: 0 <= i < |s| ==> s[i] as int < 0x100 then
      Some(StdEncode(seq(|s|, i requires 0 <= i < |s| => s[i] as int as Byte)))
    else None
  }

  /** `.replace(/\+/g, "-").replace(/\//g, "_")`. */
  function ToUrlAlphabet(s: string): (r: string)
    ensures |r| == |s|
    ensures forall i :: 0 <= i < |s| ==>
              r[i] == (if s[i] == '+' then '-' else if s[i] == '/' then '_' else s[i])
  {
    seq(|s|, i requires 0 <= i < |s| => if s[i] == '+' then '-' else if s[i] == '/' then '_' else s[i])
  }

  /** `.replace(/=+$/, "")`: removes the maximal run of `=` at the end. */
  function StripTrailingEquals(s: string): (r: string)
    ensures |r| <= |s| && r == s[..|r|]
    ensures forall i :: |r| <= i < |s| ==> s[i] == '='
    ensures r == [] || r[|r| - 1] != '='
  {
    if s != [] && s[|s| - 1] == '=' then StripTrailingEquals(s[..|s| - 1]) else s
  }

  /**
   * The `client_id` value built from the random octets. `btoa` never throws
   * here, and the rewrite yields exactly the unpadded URL-safe encoding.
   */
  function ClientId(random: seq<Byte>): (r: Option<string>)
    ensures r == Some(UrlEncodeNoPad(random))
  {
    var t := Btoa(FromCharCodes(random));
    BtoaOfOctets(random);
    RewriteIsUrlAlphabet(random);
    match t
    case Some(b) => Some(StripTrailingEquals(ToUrlAlphabet(b)))
    case None => None
  }

  lemma BtoaOfOctets(bs: seq<Byte>)
    ensures Btoa(FromCharCodes(bs)) == Some(StdEncode(bs))
  {
    var s := FromCharCodes(bs);
    assert seq(|s|, i requires 0 <= i < |s| => s[i] as int as Byte) == bs;
  }

  lemma RewriteIsUrlAlphabet(bs: seq<Byte>)
    ensures StripTrailingEquals(ToUrlAlphabet(StdEncode(bs))) == UrlEncodeNoPad(bs)
  {
    var vs := Sextets(bs);
    var std := StdEncode(bs);
    var u := ToUrlAlphabet(std);
    var ref := UrlEncodeNoPad(bs);
    assert u[..|vs|] == ref;
    assert forall i :: |vs| <= i < |u| ==> u[i] == '=';
    StripEqualsRun(u, |vs|);
  }

  /** Stripping a string whose tail from `k` is all `=` and whose character before `k` is not `=` leaves its first `k` characters. */
  lemma StripEqualsRun(s: string, k: nat)
    requires k <= |s|
    requires forall i :: k <= i < |s| ==> s[i] == '='
    requires k == 0 || s[k - 1] != '='
    ensures StripTrailingEquals(s) == s[..k]
  {
  }

  /** A `client_id` never holds `+`, `/` or `=`, and every character is a URL-safe base64 digit. */
  lemma ClientIdAlphabet(random: seq<Byte>)
    ensures var id := ClientId(random).value;
            forall i :: 0 <= i < |id| ==> id[i] !in "+/=" && UrlDigitValue(id[i]).Some?
  {
  }

  /** The 32 random octets the worker draws always give a 43-character `client_id`. */
  lemma ClientIdLength(random: seq<Byte>)
    requires |random| == 32
    ensures |ClientId(random).value| == 43
  {
  }

  // ---------------------------------------------------------------------
  // Decoding, to show that no information is lost by the rewrite.
  // ---------------------------------------------------------------------

  function DigitValues(s: string): (r: Option<seq<Sextet>>)
    ensures r.Some? ==> |r.value| == |s|
  {
    if s == [] then Some([])
    else match (UrlDigitValue(s[0]), DigitValues(s[1..]))
      case (Some(v), Some(vs)) => Some([v] + vs)
      case _ => None
  }

  /** Regroups sextets into octets; a lone trailing sextet cannot carry an octet and fails. */
  function Octets(vs: seq<Sextet>): Option<seq<Byte>> {
    if |vs| == 0 then Some([])
    else if |vs| == 1 then None
    else
      var b0: Byte := vs[0] as int * 4 + vs[1] as int / 16;
      if |vs| == 2 then Some([b0])
      else
        var b1: Byte := (vs[1] as int % 16) * 16 + vs[2] as int / 4;
        if |vs| == 3 then Some([b0, b1])
        else
          var b2: Byte := (vs[2] as int % 4) * 64 + vs[3] as int;
          match Octets(vs[4..])
          case None => None
          case Some(rest) => Some([b0, b1, b2] + rest)
  }

  /** Decoding of unpadded URL-safe base64. */
  function UrlDecodeNoPad(s: string): Option<seq<Byte>> {
    match DigitValues(s)
    case None => None
    case Some(vs) => Octets(vs)
  }

  lemma UrlDigitRoundTrip(d: Sextet)
    ensures UrlDigitValue(UrlDigit(d)) == Some(d)
  {
  }

  lemma {:induction false} DigitValuesOfEncoding(bs: seq<Byte>)
    ensures DigitValues(UrlEncodeNoPad(bs)) == Some(Sextets(bs))
  {
    var vs := Sextets(bs);
    DigitValuesOf(vs);
  }

  lemma {:induction false} DigitValuesOf(vs: seq<Sextet>)
    ensures DigitValues(seq(|vs|, i requires 0 <= i < |vs| => UrlDigit(vs[i]))) == Some(vs)
  {
    var s := seq(|vs|, i requires 0 <= i < |vs| => UrlDigit(vs[i]));
    if vs != [] {
      DigitValuesOf(vs[1..]);
      assert s[1..] == seq(|vs[1..]|, i requires 0 <= i < |vs[1..]| => UrlDigit(vs[1..][i]));
      UrlDigitRoundTrip(vs[0]);
      assert [vs[0]] + vs[1..] == vs;
    }
  }

  /** One byte split into sextets and joined again. */
  lemma OneOctet(b0: Byte, b1: int)
    requires 0 <= b1 < 16
    ensures (b0 / 4) * 4 + ((b0 % 4) * 16 + b1) / 16 == b0
  {
  }

  lemma TwoOctets(b0: Byte, b1: Byte, b2: int)
    requires 0 <= b2 < 4
    ensures var v1 := (b0 % 4) * 16 + b1 / 16;
            var v2 := (b1 % 16) * 4 + b2;
            && (b0 / 4) * 4 + v1 / 16 == b0
            && (v1 % 16) * 16 + v2 / 4 == b1
  {
    OneOctet(b0, b1 / 16);
  }

  lemma ThreeOctets(b0: Byte, b1: Byte, b2: Byte)
    ensures var v2 := (b1 % 16) * 4 + b2 / 64;
            (v2 % 4) * 64 + b2 % 64 == b2
  {
  }

  /** Round trip: the unpadded URL-safe encoding decodes to the original octets. */
  lemma {:induction false} UrlRoundTrip(bs: seq<Byte>)
    ensures UrlDecodeNoPad(UrlEncodeNoPad(bs)) == Some(bs)
  {
    DigitValuesOfEncoding(bs);
    OctetsOfSextets(bs);
  }

  lemma {:induction false} OctetsOfSextets(bs: seq<Byte>)
    ensures Octets(Sextets(bs)) == Some(bs)
  {
    if |bs| == 1 {
      OneOctet(bs[0], 0);
      assert bs == [bs[0]];
    } else if |bs| == 2 {
      TwoOctets(bs[0], bs[1], 0);
      assert bs == [bs[0], bs[1]];
    } else if |bs| >= 3 {
      OctetsOfSextets(bs[3..]);
      OctetsOfGroup(bs[0], bs[1], bs[2], Sextets(bs[3..]));
      assert bs == [bs[0], bs[1], bs[2]] + bs[3..];
    }
  }

  /** A group of four sextets regroups into its three octets ahead of whatever the rest decodes to. */
  lemma OctetsOfGroup(b0: Byte, b1: Byte, b2: Byte, rest: seq<Sextet>)
    ensures Octets(Group(b0, b1, b2) + rest) == match Octets(rest)
                                                case None => None
                                                case Some(r) => Some([b0, b1, b2] + r)
  {
    var g := Group(b0, b1, b2);
    var vs := g + rest;
    assert vs[4..] == rest;
    GroupRoundTrip(b0, b1, b2, g[0], g[1], g[2], g[3]);
  }

  /** Three octets cut into four sextets are joined back into the same three octets. */
  lemma GroupRoundTrip(b0: Byte, b1: Byte, b2: Byte, v0: int, v1: int, v2: int, v3: int)
    requires v0 == b0 / 4 && v1 == (b0 % 4) * 16 + b1 / 16
    requires v2 == (b1 % 16) * 4 + b2 / 64 && v3 == b2 % 64
    ensures v0 * 4 + v1 / 16 == b0
    ensures (v1 % 16) * 16 + v2 / 4 == b1
    ensures (v2 % 4) * 64 + v3 == b2
  {
    TwoOctets(b0, b1, b2 / 64);
    ThreeOctets(b0, b1, b2);
  }

  /** Different random octets give different `client_id`s. */
  lemma ClientIdInjective(a: seq<Byte>, b: seq<Byte>)
    requires ClientId(a) == ClientId(b)
    ensures a == b
  {
    UrlRoundTrip(a);
    UrlRoundTrip(b);
  }
}

=== FILE: catbox_relay.dfy ===
/**
 * The FastAPI service in `main.py`: `GET /generate` validates the prompt,
 * downloads the flux-realism image from pollinations, re-uploads it to
 * catbox.moe and answers with both URLs. The two HTTP calls are described by
 * their outcomes; the reply comes with the list of calls actually made.
 */
module CatboxRelay {
  import opened Wrappers
  import opened Utf8
  import opened Json
  import opened Text
  import opened PercentEncoding

  const GeneratorPrefix: string := "https://image.pollinations.ai/prompt/"
  const GeneratorQuery: string := "?model=flux-realism&width=1024&height=1024&nologo=true&safe=0"
  const CatboxApi: string := "https://catbox.moe/user/api.php"

  const PromptRequired: string := "El parámetro 'prompt' es obligatorio"
  const UploadFailed: string := "Error al subir a Catbox"
  const Uploaded: string := "Imagen generada y subida a Catbox.moe"

  /** How the image download ended: a response (with the text `raise_for_status` would raise for it), or an exception. */
  datatype GeneratorOutcome =
    | GeneratorResponse(status: int, content: seq<Byte>, statusErrorText: string)
    | GeneratorRaised(errorText: string)

  /** How the catbox POST ended: a response with its text, or an exception. */
  datatype UploadOutcome =
    | UploadResponse(status: int, text: string)
    | UploadRaised(errorText: string)

  /** The outbound calls, in the order made. */
  datatype Call =
    | GeneratorGet(url: string)
    | CatboxPost(url: string, reqtype: string, file: seq<Byte>)

  /** A `JSONResponse` with status 200, or an `HTTPException` (FastAPI answers `{"detail": ...}`). */
  datatype Reply =
    | JsonOk(body: seq<(string, Json)>)
    | HttpError(status: int, detail: string)

  datatype Handled = Handled(reply: Reply, calls: seq<Call>)

  function StatusOf(r: Reply): int {
    match r
    case JsonOk(_) => 200
    case HttpError(s, _) => s
  }

  /** `quote(prompt)` with the default `safe='/'`; the prompt is used untrimmed. */
  function GeneratorUrl(prompt: string): (url: string)
    ensures |GeneratorPrefix| + |GeneratorQuery| <= |url|
    ensures var path := url[|GeneratorPrefix|..|url| - |GeneratorQuery|];
            && url == GeneratorPrefix + path + GeneratorQuery
            && (forall i :: 0 <= i < |path| ==> path[i] !in "?&#")
            && PercentEncoding.Decode(path) == Some(prompt)
  {
    var path := PercentEncoding.Encode(Quote, prompt);
    var url := GeneratorPrefix + path + GeneratorQuery;
    assert url[|GeneratorPrefix|..|url| - |GeneratorQuery|] == path;
    QuoteKeepsQueryDelimitersOut(prompt);
    PercentEncoding.DecodeEncode(Quote, prompt);
    url
  }

  /** httpx's `Response.is_success`, below which `raise_for_status` raises. */
  predicate IsSuccess(status: int) {
    200 <= status <= 299
  }

  /** `upload_to_catbox` after its POST: the stripped body on exactly 200, otherwise the text of the exception. */
  function UploadToCatbox(up: UploadOutcome): (r: Result<string, string>)
    ensures r.Ok? <==> up.UploadResponse? && up.status == 200
    ensures r.Ok? ==> r.value == Trim(Python, up.text)
    ensures up.UploadResponse? && up.status != 200 ==> r == Err(UploadFailed)
  {
    match up
    case UploadResponse(status, text) => if status == 200 then Ok(Trim(Python, text)) else Err(UploadFailed)
    case UploadRaised(e) => Err(e)
  }

  /** `not prompt or prompt.strip() == ""`: the prompt is empty or made of Python whitespace only. */
  predicate IsBlank(prompt: string): (b: bool)
    ensures b <==> AllSpace(Python, prompt)
  {
    TrimEmptyIffAllSpace(Python, prompt);
    prompt == "" || Trim(Python, prompt) == ""
  }

  /** The success body, in the order of the dict literal (`file_size_kb` is not modelled). */
  function SuccessBody(prompt: string, url: string, permanent: string): seq<(string, Json)> {
    [ ("status_code", JInt(200)),
      ("message", JStr(Uploaded)),
      ("prompt", JStr(prompt)),
      ("temporary_generation_url", JStr(url)),
      ("permanent_catbox_url", JStr(permanent)),
      ("developer", JStr("El Impaciente + Grok")),
      ("telegram", JStr("https://t.me/Apisimpacientes")) ]
  }

  /**
   * `generate_and_upload(prompt: str = "")`. A missing query value is the
   * empty string; everything inside the `try` that raises becomes a 500 with
   * detail `"Error: " + str(e)`.
   */
  function GenerateAndUpload(query: Option<string>, gen: GeneratorOutcome, up: UploadOutcome): (h: Handled)
    ensures StatusOf(h.reply) in {200, 400, 500}
    ensures |h.calls| <= 2
  {
    var prompt := PromptOf(query);
    if IsBlank(prompt) then Handled(HttpError(400, PromptRequired), [])
    else
      var url := GeneratorUrl(prompt);
      var get := GeneratorGet(url);
      match gen
      case GeneratorRaised(e) => Handled(HttpError(500, "Error: " + e), [get])
      case GeneratorResponse(status, content, statusError) =>
        if !IsSuccess(status) then Handled(HttpError(500, "Error: " + statusError), [get])
        else
          var calls := [get, CatboxPost(CatboxApi, "fileupload", content)];
          match UploadToCatbox(up)
          case Err(e) => Handled(HttpError(500, "Error: " + e), calls)
          case Ok(permanent) => Handled(JsonOk(SuccessBody(prompt, url, permanent)), calls)
  }

  /** The `prompt` argument: the query value, or the default `""`. */
  function PromptOf(query: Option<string>): string {
    if query.Some? then query.value else ""
  }

  /** Whether the generator answered with a 2xx status. */
  predicate Generated(gen: GeneratorOutcome) {
    gen.GeneratorResponse? && IsSuccess(gen.status)
  }

  // ---------------------------------------------------------------------
  // Properties.
  // ---------------------------------------------------------------------

  /** A missing, empty or whitespace-only prompt is the one 400, and it is decided before any call. */
  lemma ValidationBeforeAnyCall(query: Option<string>, gen: GeneratorOutcome, up: UploadOutcome)
    ensures var h := GenerateAndUpload(query, gen, up);
            && (StatusOf(h.reply) == 400 <==> AllSpace(Python, PromptOf(query)))
            && (AllSpace(Python, PromptOf(query)) ==> h == Handled(HttpError(400, PromptRequired), []))
  {
    TrimEmptyIffAllSpace(Python, PromptOf(query));
  }

  /** Past validation the first call is always the GET of the deterministic generator URL for the untrimmed prompt. */
  lemma GeneratorUrlIsFirstCall(query: Option<string>, gen: GeneratorOutcome, up: UploadOutcome)
    requires !AllSpace(Python, PromptOf(query))
    ensures var h := GenerateAndUpload(query, gen, up);
            |h.calls| >= 1 && h.calls[0] == GeneratorGet(GeneratorUrl(PromptOf(query)))
  {
    var prompt := PromptOf(query);
    assert !IsBlank(prompt);
    var get := GeneratorGet(GeneratorUrl(prompt));
    if Generated(gen) {
      assert GenerateAndUpload(query, gen, up).calls == [get, CatboxPost(CatboxApi, "fileupload", gen.content)];
    } else {
      assert GenerateAndUpload(query, gen, up).calls == [get];
    }
  }

  /** A failed download (non-2xx or an exception) is a 500 and no upload is attempted. */
  lemma GeneratorFailureSkipsUpload(query: Option<string>, gen: GeneratorOutcome, up: UploadOutcome)
    requires !AllSpace(Python, PromptOf(query)) && !Generated(gen)
    ensures var h := GenerateAndUpload(query, gen, up);
            && h.calls == [GeneratorGet(GeneratorUrl(PromptOf(query)))]
            && h.reply.HttpError? && h.reply.status == 500
            && h.reply.detail == "Error: " + (if gen.GeneratorRaised? then gen.errorText else gen.statusErrorText)
  {
    TrimEmptyIffAllSpace(Python, PromptOf(query));
  }

  /** After a successful download the upload carries exactly the downloaded bytes; a non-200 upload is the catbox 500. */
  lemma UploadCarriesDownloadedBytes(query: Option<string>, gen: GeneratorOutcome, up: UploadOutcome)
    requires !AllSpace(Python, PromptOf(query)) && Generated(gen)
    ensures var h := GenerateAndUpload(query, gen, up);
            && h.calls == [GeneratorGet(GeneratorUrl(PromptOf(query))), CatboxPost(CatboxApi, "fileupload", gen.content)]
            && (up.UploadResponse? && up.status != 200 ==> h.reply == HttpError(500, "Error: " + UploadFailed))
  {
    var prompt := PromptOf(query);
    TrimEmptyIffAllSpace(Python, prompt);
    assert !IsBlank(prompt);
    var get := GeneratorGet(GeneratorUrl(prompt));
    var calls := [get, CatboxPost(CatboxApi, "fileupload", gen.content)];
    var u := UploadToCatbox(up);
    assert GenerateAndUpload(query, gen, up) == Handled(
      if u.Err? then HttpError(500, "Error: " + u.error) else JsonOk(SuccessBody(prompt, GeneratorUrl(prompt), u.value)),
      calls);
  }

  /** The fields of the success body, looked up by name. */
  lemma SuccessBodyFields(prompt: string, url: string, permanent: string)
    ensures var b := SuccessBody(prompt, url, permanent);
            && Get(b, "status_code") == Some(JInt(200))
            && Get(b, "message") == Some(JStr(Uploaded))
            && Get(b, "prompt") == Some(JStr(prompt))
            && Get(b, "temporary_generation_url") == Some(JStr(url))
            && Get(b, "permanent_catbox_url") == Some(JStr(permanent))
  {
    var b := SuccessBody(prompt, url, permanent);
    assert Get(b, "message") == Get(b[1..], "message");
    assert Get(b, "prompt") == Get(b[1..], "prompt") == Get(b[2..], "prompt");
    assert b[1..][1..] == b[2..] && b[2..][1..] == b[3..] && b[3..][1..] == b[4..];
    assert Get(b, "temporary_generation_url") == Get(b[1..], "temporary_generation_url")
        == Get(b[2..], "temporary_generation_url") == Get(b[3..], "temporary_generation_url");
    assert Get(b, "permanent_catbox_url") == Get(b[1..], "permanent_catbox_url")
        == Get(b[2..], "permanent_catbox_url") == Get(b[3..], "permanent_catbox_url")
        == Get(b[4..], "permanent_catbox_url");
  }

  /**
   * The reply is 200 exactly when the prompt is not blank, the download
   * succeeded and the upload answered 200; then the body echoes the
   * untrimmed prompt, the URL that was fetched and the stripped catbox text.
   */
  lemma SuccessShape(query: Option<string>, gen: GeneratorOutcome, up: UploadOutcome)
    ensures var h := GenerateAndUpload(query, gen, up);
            StatusOf(h.reply) == 200
            <==> !AllSpace(Python, PromptOf(query)) && Generated(gen) && up.UploadResponse? && up.status == 200
    ensures var h := GenerateAndUpload(query, gen, up);
            h.reply.JsonOk? ==>
              && |h.calls| == 2
              && Get(h.reply.body, "status_code") == Some(JInt(200))
              && Get(h.reply.body, "prompt") == Some(JStr(PromptOf(query)))
              && Get(h.reply.body, "temporary_generation_url") == Some(JStr(h.calls[0].url))
              && Get(h.reply.body, "permanent_catbox_url") == Some(JStr(Trim(Python, up.text)))
  {
    var prompt := PromptOf(query);
    TrimEmptyIffAllSpace(Python, prompt);
    var h := GenerateAndUpload(query, gen, up);
    if IsBlank(prompt) {
      assert h.reply == HttpError(400, PromptRequired);
    } else if !Generated(gen) {
      GeneratorFailureSkipsUpload(query, gen, up);
    } else {
      UploadCarriesDownloadedBytes(query, gen, up);
      var u := UploadToCatbox(up);
      var url := GeneratorUrl(prompt);
      if u.Ok? {
        assert h.reply == JsonOk(SuccessBody(prompt, url, u.value));
        SuccessBodyFields(prompt, url, u.value);
      } else {
        assert h.reply == HttpError(500, "Error: " + u.error);
      }
    }
  }

  /** A `/` in the prompt reaches the generator URL unescaped, so the prompt spans more than one path segment. */
  lemma SlashSplitsGeneratorPath(prompt: string, i: nat)
    requires i < |prompt| && prompt[i] == '/'
    ensures GeneratorUrl(prompt)
            == GeneratorPrefix + PercentEncoding.Encode(Quote, prompt[..i]) + "/"
               + PercentEncoding.Encode(Quote, prompt[i + 1..]) + GeneratorQuery
  {
    SlashSurvivesQuote(prompt, i);
    Reassociate(GeneratorPrefix, PercentEncoding.Encode(Quote, prompt[..i]), PercentEncoding.Encode(Quote, prompt[i + 1..]),
                GeneratorQuery);
  }

  lemma Reassociate(p: string, a: string, b: string, q: string)
    ensures p + (a + "/" + b) + q == p + a + "/" + b + q
  {
  }
}

=== FILE: json.dfy ===
/**
 * JSON values as the worker and the Python service build them. An object is
 * a list of members in insertion order; setting a key that is already there
 * replaces its value in place, and a spread `{...a, ...b}` sets b's members
 * one after another, so a later source wins.
 */
module Json {
  import opened Wrappers

  datatype Json =
    | JNull
    | JBool(b: bool)
    | JInt(i: int)
    | JStr(s: string)
    | JArr(items: seq<Json>)
    | JObj(members: seq<(string, Json)>)

  /** The keys of an object, in order. */
  function Keys(m: seq<(string, Json)>): (ks: seq<string>)
    ensures |ks| == |m|
    ensures forall i :: 0 <= i < |m| ==> ks[i] == m[i].0
  {
    if m == [] then [] else [m[0].0] + Keys(m[1..])
  }

  /** The value under `k`; an object built by `Set` has each key once. */
  function Get(m: seq<(string, Json)>, k: string): (r: Option<Json>)
    ensures r.Some? <==> k in Keys(m)
  {
    if m == [] then None
    else if m[0].0 == k then Some(m[0].1)
    else Get(m[1..], k)
  }

  /** A lookup returns the value of the first member whose key is `k`. */
  lemma {:induction false} GetFirst(m: seq<(string, Json)>, k: string, i: nat)
    requires i < |m| && m[i].0 == k && k !in Keys(m[..i])
    ensures Get(m, k) == Some(m[i].1)
  {
    if i > 0 {
      assert Keys(m[..i])[0] == m[0].0;
      assert m[1..][..i - 1] == m[..i][1..];
      assert Keys(m[1..][..i - 1]) == Keys(m[..i])[1..];
      GetFirst(m[1..], k, i - 1);
    }
  }

  /** Defines `k` as `v`: in place when the key exists, otherwise as a new last member. */
  function Set(m: seq<(string, Json)>, k: string, v: Json): (r: seq<(string, Json)>)
    ensures Get(r, k) == Some(v)
    ensures forall k' :: k' != k ==> Get(r, k') == Get(m, k')
  {
    if m == [] then [(k, v)]
    else if m[0].0 == k then [(k, v)] + m[1..]
    else [m[0]] + Set(m[1..], k, v)
  }

  /** Setting keeps every key where it was and adds a new key at the end. */
  lemma {:induction false} SetKeys(m: seq<(string, Json)>, k: string, v: Json)
    ensures Keys(Set(m, k, v)) == if k in Keys(m) then Keys(m) else Keys(m) + [k]
  {
    if m == [] {
      assert Keys(Set(m, k, v)) == [k];
    } else if m[0].0 == k {
      assert k in Keys(m) by {
        assert Keys(m)[0] == k;
      }
      assert Keys(Set(m, k, v)) == [k] + Keys(m[1..]) == Keys(m);
    } else {
      SetKeys(m[1..], k, v);
      assert k in Keys(m) <==> k in Keys(m[1..]);
      assert Keys(m) == [m[0].0] + Keys(m[1..]);
      assert Keys(Set(m, k, v)) == [m[0].0] + Keys(Set(m[1..], k, v));
    }
  }

  /** `{...m, ...extra}`. */
  function Spread(m: seq<(string, Json)>, extra: seq<(string, Json)>): (r: seq<(string, Json)>)
    decreases |extra|
  {
    if extra == [] then m
    else
      Spread(Set(m, extra[0].0, extra[0].1), extra[1..])
  }

  /**
   * After a spread a key keeps its old value unless `extra` mentions it, and
   * then it holds the value `extra` gives it last.
   */
  lemma {:induction false} SpreadGet(m: seq<(string, Json)>, extra: seq<(string, Json)>, k: string)
    ensures k !in Keys(extra) ==> Get(Spread(m, extra), k) == Get(m, k)
    ensures forall i :: 0 <= i < |extra| && extra[i].0 == k && k !in Keys(extra[i + 1..]) ==>
              Get(Spread(m, extra), k) == Some(extra[i].1)
    decreases |extra|
  {
    if extra != [] {
      var m' := Set(m, extra[0].0, extra[0].1);
      SpreadGet(m', extra[1..], k);
      assert k in Keys(extra[1..]) ==> k in Keys(extra) by {
        if k in Keys(extra[1..]) {
          var j :| 0 <= j < |extra[1..]| && Keys(extra[1..])[j] == k;
          assert Keys(extra)[j + 1] == k;
        }
      }
      forall i | 0 <= i < |extra| && extra[i].0 == k && k !in Keys(extra[i + 1..])
        ensures Get(Spread(m, extra), k) == Some(extra[i].1)
      {
        if i > 0 {
          assert extra[1..][i - 1] == extra[i];
          assert extra[1..][i..] == extra[i + 1..];
        } else {
          assert extra[1..] == extra[i + 1..];
        }
      }
    }
  }

  /** A spread keeps every member of the base object and adds at most one member per entry of `extra`. */
  lemma {:induction false} SpreadLength(m: seq<(string, Json)>, extra: seq<(string, Json)>)
    ensures |m| <= |Spread(m, extra)| <= |m| + |extra|
    decreases |extra|
  {
    if extra != [] {
      SetKeys(m, extra[0].0, extra[0].1);
      SpreadLength(Set(m, extra[0].0, extra[0].1), extra[1..]);
    }
  }

  /** The keys of a spread: the old keys stay first, in their places. */
  lemma {:induction false} SpreadKeepsOldKeys(m: seq<(string, Json)>, extra: seq<(string, Json)>)
    ensures |Keys(Spread(m, extra))| >= |Keys(m)|
    ensures Keys(Spread(m, extra))[..|m|] == Keys(m)
    decreases |extra|
  {
    if extra != [] {
      var m' := Set(m, extra[0].0, extra[0].1);
      SpreadKeepsOldKeys(m', extra[1..]);
      SetKeys(m, extra[0].0, extra[0].1);
      assert Keys(m')[..|m|] == Keys(m);
    }
  }
}

=== FILE: multipart.dfy ===
/**
 * `multipart/form-data` framing as the worker writes it by hand: every field
 * is a body part opened by the dash-boundary delimiter (section 5.1.1 of
 * RFC 2046) with a `Content-Disposition: form-data; name="..."` header
 * (section 4.2 of RFC 7578), and the close delimiter ends the body. Names
 * and values are copied verbatim; nothing is escaped.
 */
module Multipart {

  datatype Field = Field(name: string, value: string)

  /** What `createFormData` returns: the body and the matching `Content-Type`. */
  datatype FormData = FormData(body: string, contentType: string)

  const Crlf: string := "\r\n"
  const ContentTypePrefix: string := "multipart/form-data; boundary="

  /** The delimiter line and header block that open the part of field `name`. */
  function PartHead(boundary: string, name: string): string {
    "--" + boundary + Crlf + "Content-Disposition: form-data; name=\"" + name + "\"" + Crlf + Crlf
  }

  /** The text that frames one field. */
  function Part(boundary: string, f: Field): string {
    PartHead(boundary, f.name) + f.value + Crlf
  }

  /** The close delimiter that ends the body. */
  function CloseDelimiter(boundary: string): string {
    "--" + boundary + "--" + Crlf
  }

  /** All parts joined with no separator, in field order. */
  function Parts(boundary: string, fields: seq<Field>): string {
    if fields == [] then "" else Part(boundary, fields[0]) + Parts(boundary, fields[1..])
  }

  /** Frames `fields` with `boundary`. */
  function CreateFormData(boundary: string, fields: seq<Field>): (r: FormData)
    ensures r.contentType == ContentTypePrefix + boundary
    ensures |r.body| == |Parts(boundary, fields)| + |CloseDelimiter(boundary)|
    ensures r.body[..|Parts(boundary, fields)|] == Parts(boundary, fields)
    ensures r.body[|r.body| - |CloseDelimiter(boundary)|..] == CloseDelimiter(boundary)
    ensures fields != [] ==> r.body[..|boundary| + 4] == "--" + boundary + Crlf
  {
    var parts := Parts(boundary, fields);
    var body := parts + CloseDelimiter(boundary);
    assert body[|parts|..] == CloseDelimiter(boundary);
    assert body[..|parts|] == parts;
    assert fields != [] ==> body[..|boundary| + 4] == Part(boundary, fields[0])[..|boundary| + 4];
    FormData(body, ContentTypePrefix + boundary)
  }

  /** Framing a concatenation of field lists frames each list in turn. */
  lemma {:induction false} PartsAppend(boundary: string, xs: seq<Field>, ys: seq<Field>)
    ensures Parts(boundary, xs + ys) == Parts(boundary, xs) + Parts(boundary, ys)
    decreases |xs|
  {
    if xs == [] {
      assert xs + ys == ys;
    } else {
      assert (xs + ys)[1..] == xs[1..] + ys;
      PartsAppend(boundary, xs[1..], ys);
    }
  }

  /** Where field `i`'s part starts in the body: after the parts of the fields before it. */
  function Offset(boundary: string, fields: seq<Field>, i: nat): nat
    requires i <= |fields|
  {
    |Parts(boundary, fields[..i])|
  }

  /** Field `i` appears, framed by `Part`, right after the fields before it: the body keeps insertion order. */
  lemma PartAt(boundary: string, fields: seq<Field>, i: nat)
    requires i < |fields|
    ensures Offset(boundary, fields, i) + |Part(boundary, fields[i])| <= |CreateFormData(boundary, fields).body|
    ensures CreateFormData(boundary, fields).body[Offset(boundary, fields, i)..Offset(boundary, fields, i) + |Part(boundary, fields[i])|]
            == Part(boundary, fields[i])
  {
    var o, n := Offset(boundary, fields, i), |Part(boundary, fields[i])|;
    var parts := Parts(boundary, fields);
    PartInParts(boundary, fields, i);
    var body := CreateFormData(boundary, fields).body;
    assert body[..|parts|] == parts;
    assert body[o..o + n] == body[..|parts|][o..o + n];
  }

  /** The same, within the joined parts. */
  lemma PartInParts(boundary: string, fields: seq<Field>, i: nat)
    requires i < |fields|
    ensures Offset(boundary, fields, i) + |Part(boundary, fields[i])| <= |Parts(boundary, fields)|
    ensures Parts(boundary, fields)[Offset(boundary, fields, i)..Offset(boundary, fields, i) + |Part(boundary, fields[i])|]
            == Part(boundary, fields[i])
  {
    var pre, mid, post := fields[..i], [fields[i]], fields[i + 1..];
    var a, b, c := Parts(boundary, pre), Part(boundary, fields[i]), Parts(boundary, post);
    assert Parts(boundary, fields) == a + (b + c) by {
      assert fields == pre + (mid + post);
      PartsAppend(boundary, pre, mid + post);
      PartsAppend(boundary, mid, post);
      assert mid[1..] == [];
    }
    SliceMiddle(Parts(boundary, fields), a, b, c);
  }

  lemma SliceMiddle(whole: string, a: string, b: string, c: string)
    requires whole == a + (b + c)
    ensures |a| + |b| <= |whole| && whole[|a|..|a| + |b|] == b
  {
    assert whole[|a|..] == b + c;
  }

  /**
   * The framing cannot be parsed back in general: a value that contains a
   * CRLF, the delimiter and a part header reads as two fields.
   */
  lemma ValueCanForgeField(boundary: string, a: string, b: string, v1: string, v2: string)
    ensures CreateFormData(boundary, [Field(a, v1 + Crlf + PartHead(boundary, b) + v2)])
            == CreateFormData(boundary, [Field(a, v1), Field(b, v2)])
  {
    var one := [Field(a, v1 + Crlf + PartHead(boundary, b) + v2)];
    var two := [Field(a, v1), Field(b, v2)];
    ForgedParts(boundary, a, b, v1, v2);
    assert CreateFormData(boundary, one).body == Parts(boundary, one) + CloseDelimiter(boundary);
    assert CreateFormData(boundary, two).body == Parts(boundary, two) + CloseDelimiter(boundary);
  }

  lemma ForgedParts(boundary: string, a: string, b: string, v1: string, v2: string)
    ensures Parts(boundary, [Field(a, v1 + Crlf + PartHead(boundary, b) + v2)])
            == Parts(boundary, [Field(a, v1), Field(b, v2)])
  {
    var ha, hb := PartHead(boundary, a), PartHead(boundary, b);
    var one := [Field(a, v1 + Crlf + hb + v2)];
    var two := [Field(a, v1), Field(b, v2)];
    assert one[1..] == [];
    assert two[1..] == [Field(b, v2)];
    assert two[1..][1..] == [];
    calc {
      Parts(boundary, one);
      Part(boundary, one[0]);
      ha + (v1 + Crlf + hb + v2) + Crlf;
      (ha + v1 + Crlf) + (hb + v2 + Crlf);
      Part(boundary, two[0]) + Part(boundary, two[1]);
      { assert Parts(boundary, two[1..]) == Part(boundary, two[1]) + Parts(boundary, []); }
      Part(boundary, two[0]) + Parts(boundary, two[1..]);
      Parts(boundary, two);
    }
  }
}

=== FILE: percent_encoding.dfy ===
/**
 * Percent-encoding of a prompt (section 2.1 of RFC 3986): each UTF-8 octet
 * outside an escaper's unescaped set becomes `%` and two upper-case hex
 * digits. The worker escapes with `encodeURIComponent`; the Python service
 * with `urllib.parse.quote` and its default `safe='/'`.
 */
module PercentEncoding {
  import opened Wrappers
  import opened Utf8

  /** The two escapers the programs use. */
  datatype Escaper =
    | UriComponent  // ECMAScript encodeURIComponent
    | Quote         // urllib.parse.quote(s) with safe='/'

  predicate IsAsciiAlphanumeric(b: int) {
    (0x30 <= b <= 0x39) || (0x41 <= b <= 0x5A) || (0x61 <= b <= 0x7A)
  }

  /** The octets an escaper copies through as the ASCII character they encode. */
  predicate Unescaped(e: Escaper, b: Byte) {
    IsAsciiAlphanumeric(b)
    || match e
       case UriComponent => b as char in "-_.!~*'()"
       case Quote => b as char in "_.-~/"
  }

  /** The characters on which the two escapers disagree. */
  predicate Divergent(c: char) {
    c in "/!*'()"
  }

  function HexDigit(d: int): char
    requires 0 <= d < 16
  {
    if d < 10 then ('0' as int + d) as char else ('A' as int + d - 10) as char
  }

  predicate IsUpperHexDigit(c: char) {
    '0' <= c <= '9' || 'A' <= c <= 'F'
  }

  /** The character an escaper's output may hold: `%`, an upper-case hex digit, or an unescaped ASCII character. */
  predicate IsOutputChar(e: Escaper, c: char) {
    c == '%' || IsUpperHexDigit(c) || (c as int < 0x80 && Unescaped(e, c as int))
  }

  function EscapeByte(e: Escaper, b: Byte): (r: string)
    ensures forall i :: 0 <= i < |r| ==> IsOutputChar(e, r[i])
  {
    if Unescaped(e, b) then [b as char] else ['%', HexDigit(b / 16), HexDigit(b % 16)]
  }

  /** Escapes every octet in order. */
  function EscapeBytes(e: Escaper, bs: seq<Byte>): (r: string)
    ensures |bs| <= |r| <= 3 * |bs|
    ensures forall i :: 0 <= i < |r| ==> IsOutputChar(e, r[i])
  {
    if bs == [] then [] else EscapeByte(e, bs[0]) + EscapeBytes(e, bs[1..])
  }

  /** `encodeURIComponent(s)` (e = UriComponent) or `quote(s)` (e = Quote). */
  function Encode(e: Escaper, s: string): (r: string)
    ensures |s| <= |r| <= 12 * |s|
    ensures forall i :: 0 <= i < |r| ==> IsOutputChar(e, r[i])
  {
    EscapeBytes(e, Utf8.Encode(s))
  }

  lemma {:induction false} EscapeBytesAppend(e: Escaper, a: seq<Byte>, b: seq<Byte>)
    ensures EscapeBytes(e, a + b) == EscapeBytes(e, a) + EscapeBytes(e, b)
    decreases |a|
  {
    if a == [] {
      assert a + b == b;
    } else {
      assert (a + b)[1..] == a[1..] + b;
      EscapeBytesAppend(e, a[1..], b);
    }
  }

  /** Encoding a string is encoding its first character, then the rest. */
  lemma EncodeCons(e: Escaper, s: string)
    requires s != []
    ensures Encode(e, s) == EscapeBytes(e, EncodeChar(s[0])) + Encode(e, s[1..])
  {
    EscapeBytesAppend(e, EncodeChar(s[0]), Utf8.Encode(s[1..]));
  }

  /** The output of `encodeURIComponent` has no `/`, `?`, `&` or `#`, so it stays inside one path segment. */
  lemma ComponentIsOneSegment(s: string)
    ensures forall i :: 0 <= i < |Encode(UriComponent, s)| ==> Encode(UriComponent, s)[i] !in "/?&#"
  {
    var r := Encode(UriComponent, s);
    forall i | 0 <= i < |r|
      ensures r[i] !in "/?&#"
    {
      assert IsOutputChar(UriComponent, r[i]);
    }
  }

  /** The output of `quote` has no `?`, `&` or `#`; every `/` of the prompt is copied to its own place. */
  lemma QuoteKeepsQueryDelimitersOut(s: string)
    ensures forall i :: 0 <= i < |Encode(Quote, s)| ==> Encode(Quote, s)[i] !in "?&#"
    ensures forall i :: 0 <= i < |s| && s[i] == '/' ==>
              |Encode(Quote, s[..i])| < |Encode(Quote, s)| && Encode(Quote, s)[|Encode(Quote, s[..i])|] == '/'
  {
    var r := Encode(Quote, s);
    forall i | 0 <= i < |r|
      ensures r[i] !in "?&#"
    {
      assert IsOutputChar(Quote, r[i]);
    }
    forall i | 0 <= i < |s| && s[i] == '/'
      ensures |Encode(Quote, s[..i])| < |r| && r[|Encode(Quote, s[..i])|] == '/'
    {
      SlashSurvivesQuote(s, i);
    }
  }

  /** Encoding splits around any character: what comes before, that character's escape, what comes after. */
  lemma EncodeAround(e: Escaper, s: string, i: nat)
    requires i < |s|
    ensures Encode(e, s) == Encode(e, s[..i]) + EscapeBytes(e, EncodeChar(s[i])) + Encode(e, s[i + 1..])
  {
    assert s == s[..i] + s[i..];
    Utf8.EncodeAppend(s[..i], s[i..]);
    EscapeBytesAppend(e, Utf8.Encode(s[..i]), Utf8.Encode(s[i..]));
    EncodeCons(e, s[i..]);
    assert s[i..][0] == s[i] && s[i..][1..] == s[i + 1..];
  }

  /** `quote` copies a `/` at position `i` unescaped, between the encodings of what precedes and follows it. */
  lemma SlashSurvivesQuote(s: string, i: nat)
    requires i < |s| && s[i] == '/'
    ensures Encode(Quote, s) == Encode(Quote, s[..i]) + "/" + Encode(Quote, s[i + 1..])
  {
    EncodeAround(Quote, s, i);
    assert EncodeChar(s[i]) == [0x2F];
    assert EscapeBytes(Quote, [0x2F]) == EscapeByte(Quote, 0x2F) == "/";
  }

  /** The characters an escaper copies through: ASCII characters in its unreserved set. */
  predicate Copied(e: Escaper, c: char) {
    c as int < 0x80 && Unescaped(e, c as int)
  }

  /** An escaper leaves a string unchanged exactly when every character is one it copies through. */
  lemma {:induction false} UnchangedIffAllCopied(e: Escaper, s: string)
    ensures Encode(e, s) == s <==> forall i :: 0 <= i < |s| ==> Copied(e, s[i])
  {
    if s != [] {
      UnchangedIffAllCopied(e, s[1..]);
      assert (forall i :: 0 <= i < |s| ==> Copied(e, s[i]))
         <==> Copied(e, s[0]) && forall i :: 0 <= i < |s[1..]| ==> Copied(e, s[1..][i]) by {
        assert forall i :: 0 < i < |s| ==> s[i] == s[1..][i - 1];
      }
      if Copied(e, s[0]) {
        assert Encode(e, s) == s <==> Encode(e, s[1..]) == s[1..] by {
          CopiedHead(e, s);
          ConsEqual(s[0], Encode(e, s[1..]), s);
        }
      } else {
        EscapedHeadGrows(e, s);
      }
    }
  }

  lemma ConsEqual(c: char, t: string, s: string)
    requires s != [] && s[0] == c
    ensures [c] + t == s <==> t == s[1..]
  {
    assert s == [c] + s[1..];
    if [c] + t == s {
      assert t == ([c] + t)[1..];
    }
  }

  /** A copied first character is the first output character, as is. */
  lemma CopiedHead(e: Escaper, s: string)
    requires s != [] && Copied(e, s[0])
    ensures Encode(e, s) == [s[0]] + Encode(e, s[1..])
  {
    EncodeCons(e, s);
    var bs := EncodeChar(s[0]);
    assert bs == [s[0] as int];
    assert EscapeBytes(e, bs) == EscapeByte(e, bs[0]) + EscapeBytes(e, bs[1..]);
    assert bs[1..] == [];
  }

  /** A first character that is not copied makes the output longer than the input. */
  lemma EscapedHeadGrows(e: Escaper, s: string)
    requires s != [] && !Copied(e, s[0])
    ensures |Encode(e, s)| > |s|
  {
    EncodeCons(e, s);
    var bs := EncodeChar(s[0]);
    var h := EscapeBytes(e, bs);
    assert h == EscapeByte(e, bs[0]) + EscapeBytes(e, bs[1..]);
    if |bs| == 1 {
      assert !Unescaped(e, bs[0]);
    }
    assert |h| >= 2;
  }

  // ---------------------------------------------------------------------
  // Decoding, the inverse the generator applies to the path segment.
  // ---------------------------------------------------------------------

  /** The value of a hex digit of either case. */
  function HexValue(c: char): Option<int> {
    if '0' <= c <= '9' then Some(c as int - '0' as int)
    else if 'A' <= c <= 'F' then Some(c as int - 'A' as int + 10)
    else if 'a' <= c <= 'f' then Some(c as int - 'a' as int + 10)
    else None
  }

  /**
   * Turns `%XY` triplets back into octets and every other ASCII character
   * into its own octet; a non-ASCII character or a broken triplet fails.
   */
  function Unescape(t: string): Option<seq<Byte>>
    decreases |t|
  {
    if t == [] then Some([])
    else if t[0] == '%' then
      if |t| < 3 then None
      else match (HexValue(t[1]), HexValue(t[2]))
        case (Some(h), Some(l)) =>
          (match Unescape(t[3..])
           case None => None
           case Some(rest) => Some([h * 16 + l] + rest))
        case _ => None
    else if t[0] as int < 0x80 then
      match Unescape(t[1..])
      case None => None
      case Some(rest) => Some([t[0] as int] + rest)
    else None
  }

  /** Percent-decoding followed by strict UTF-8 decoding. */
  function Decode(t: string): Option<string> {
    match Unescape(t)
    case None => None
    case Some(bs) => Utf8.Decode(bs)
  }

  lemma HexRoundTrip(d: int)
    requires 0 <= d < 16
    ensures HexValue(HexDigit(d)) == Some(d)
  {
  }

  lemma UnescapeEscapeByte(e: Escaper, b: Byte, tail: string, rest: seq<Byte>)
    requires Unescape(tail) == Some(rest)
    ensures Unescape(EscapeByte(e, b) + tail) == Some([b] + rest)
  {
    var t := EscapeByte(e, b) + tail;
    if Unescaped(e, b) {
      assert t[0] == b as char && t[1..] == tail;
    } else {
      HexRoundTrip(b / 16);
      HexRoundTrip(b % 16);
      assert t[3..] == tail;
    }
  }

  /** Percent-decoding undoes percent-encoding of any octet string. */
  lemma {:induction false} UnescapeEscapeBytes(e: Escaper, bs: seq<Byte>)
    ensures Unescape(EscapeBytes(e, bs)) == Some(bs)
  {
    if bs != [] {
      UnescapeEscapeBytes(e, bs[1..]);
      UnescapeEscapeByte(e, bs[0], EscapeBytes(e, bs[1..]), bs[1..]);
      assert [bs[0]] + bs[1..] == bs;
    }
  }

  /** Round trip: decoding the escaped prompt yields the prompt exactly, for either escaper. */
  lemma DecodeEncode(e: Escaper, s: string)
    ensures Decode(Encode(e, s)) == Some(s)
  {
    UnescapeEscapeBytes(e, Utf8.Encode(s));
    Utf8.DecodeEncode(s);
  }

  /** Either escaper is injective: two prompts with the same escaping are the same prompt. */
  lemma EncodeInjective(e: Escaper, s: string, t: string)
    requires Encode(e, s) == Encode(e, t)
    ensures s == t
  {
    DecodeEncode(e, s);
    DecodeEncode(e, t);
  }

  // ---------------------------------------------------------------------
  // Where the two escapers differ.
  // ---------------------------------------------------------------------

  /** A character's escaping is the same under both escapers unless it is divergent. */
  lemma EscapeCharAgrees(c: char)
    requires !Divergent(c)
    ensures EscapeBytes(UriComponent, EncodeChar(c)) == EscapeBytes(Quote, EncodeChar(c))
  {
    var bs := EncodeChar(c);
    forall i | 0 <= i < |bs|
      ensures Unescaped(UriComponent, bs[i]) == Unescaped(Quote, bs[i])
    {
      if i == 0 && |bs| == 1 {
        assert bs[0] == c as int;
      }
    }
    EscapeSameWhenUnescapedSame(bs);
  }

  lemma {:induction false} EscapeSameWhenUnescapedSame(bs: seq<Byte>)
    requires forall i :: 0 <= i < |bs| ==> Unescaped(UriComponent, bs[i]) == Unescaped(Quote, bs[i])
    ensures EscapeBytes(UriComponent, bs) == EscapeBytes(Quote, bs)
  {
    if bs != [] {
      EscapeSameWhenUnescapedSame(bs[1..]);
    }
  }

  /**
   * `encodeURIComponent` and `quote` produce the same text exactly when the
   * prompt holds none of `/ ! * ' ( )`: `quote` leaves `/` alone and escapes
   * the other five, `encodeURIComponent` does the opposite.
   */
  lemma {:induction false} EscapersAgreeIff(s: string)
    ensures Encode(UriComponent, s) == Encode(Quote, s)
            <==> forall i :: 0 <= i < |s| ==> !Divergent(s[i])
  {
    if s != [] {
      EscapersAgreeIff(s[1..]);
      if Divergent(s[0]) {
        DivergentHeadDiffers(s);
      } else {
        AgreeingHead(s);
        assert forall i :: 0 < i < |s| ==> s[i] == s[1..][i - 1];
      }
    }
  }

  /** A divergent first character makes the two outputs differ in their first character. */
  lemma DivergentHeadDiffers(s: string)
    requires s != [] && Divergent(s[0])
    ensures Encode(UriComponent, s) != Encode(Quote, s)
  {
    EncodeCons(UriComponent, s);
    EncodeCons(Quote, s);
    var b := s[0] as int;
    assert EncodeChar(s[0]) == [b];
    DivergentByteDiffers(b);
    assert EscapeBytes(UriComponent, [b]) == EscapeByte(UriComponent, b);
    assert EscapeBytes(Quote, [b]) == EscapeByte(Quote, b);
    assert Encode(UriComponent, s)[0] == EscapeByte(UriComponent, b)[0];
    assert Encode(Quote, s)[0] == EscapeByte(Quote, b)[0];
  }

  /** Exactly one escaper copies a divergent octet; the other writes `%` first. */
  lemma DivergentByteDiffers(b: Byte)
    requires b < 0x80 && Divergent(b as char)
    ensures EscapeByte(UriComponent, b)[0] != EscapeByte(Quote, b)[0]
  {
    if b as char == '/' {
      assert !Unescaped(UriComponent, b) && Unescaped(Quote, b);
    } else {
      assert Unescaped(UriComponent, b) && !Unescaped(Quote, b);
    }
  }

  /** With a non-divergent first character, the outputs agree exactly when those of the rest do. */
  lemma AgreeingHead(s: string)
    requires s != [] && !Divergent(s[0])
    ensures Encode(UriComponent, s) == Encode(Quote, s) <==> Encode(UriComponent, s[1..]) == Encode(Quote, s[1..])
  {
    EncodeCons(UriComponent, s);
    EncodeCons(Quote, s);
    EscapeCharAgrees(s[0]);
    var h := EscapeBytes(UriComponent, EncodeChar(s[0]));
    if Encode(UriComponent, s) == Encode(Quote, s) {
      assert Encode(UriComponent, s[1..]) == Encode(UriComponent, s)[|h|..];
      assert Encode(Quote, s[1..]) == Encode(Quote, s)[|h|..];
    }
  }

  /**
   * Both escapers copy `.`, so a prompt of `..`, or `a/../b` under `quote`,
   * reaches the built URL as dot path segments.
   */
  lemma DotSegmentsSurvive()
    ensures Encode(UriComponent, "..") == ".."
    ensures Encode(Quote, "..") == ".."
    ensures Encode(Quote, "a/../b") == "a/../b"
  {
    UnchangedIffAllCopied(UriComponent, "..");
    UnchangedIffAllCopied(Quote, "..");
    UnchangedIffAllCopied(Quote, "a/../b");
  }

  /** Concrete witness of the divergence on `/`. */
  lemma SlashExample()
    ensures Encode(UriComponent, "a/b") == "a%2Fb"
    ensures Encode(Quote, "a/b") == "a/b"
  {
    var bs := Utf8.Encode("a/b");
    Utf8.EncodeAscii("a/b");
    assert bs == [0x61, 0x2F, 0x62];
    assert bs[1..] == [0x2F, 0x62] && bs[2..] == [0x62];
    assert EscapeBytes(Quote, [0x62]) == "b";
    assert EscapeBytes(UriComponent, [0x62]) == "b";
    assert EscapeByte(UriComponent, 0x2F) == "%2F";
  }

  /** Concrete witness of the divergence on `(`, `)` and `!`: `quote` escapes them. */
  lemma ParenQuoteExample()
    ensures Encode(Quote, "(a)!") == "%28a%29%21"
  {
    ParenBytes();
    EscapeBytesAppend(Quote, [0x28] + [0x61] + [0x29], [0x21]);
    EscapeBytesAppend(Quote, [0x28] + [0x61], [0x29]);
    EscapeBytesAppend(Quote, [0x28], [0x61]);
    QuoteParenBytes();
  }

  /** ... while `encodeURIComponent` leaves them alone. */
  lemma ParenComponentExample()
    ensures Encode(UriComponent, "(a)!") == "(a)!"
  {
    ParenBytes();
    EscapeBytesAppend(UriComponent, [0x28] + [0x61] + [0x29], [0x21]);
    EscapeBytesAppend(UriComponent, [0x28] + [0x61], [0x29]);
    EscapeBytesAppend(UriComponent, [0x28], [0x61]);
    ComponentParenBytes();
  }

  lemma ParenBytes()
    ensures Utf8.Encode("(a)!") == [0x28] + [0x61] + [0x29] + [0x21]
  {
    Utf8.EncodeAscii("(a)!");
  }

  lemma QuoteParenBytes()
    ensures EscapeBytes(Quote, [0x28]) == "%28"
    ensures EscapeBytes(Quote, [0x61]) == "a"
    ensures EscapeBytes(Quote, [0x29]) == "%29"
    ensures EscapeBytes(Quote, [0x21]) == "%21"
  {
    assert EscapeByte(Quote, 0x28) == "%28";
    assert EscapeByte(Quote, 0x29) == "%29";
    assert EscapeByte(Quote, 0x21) == "%21";
  }

  lemma ComponentParenBytes()
    ensures EscapeBytes(UriComponent, [0x28]) == "("
    ensures EscapeBytes(UriComponent, [0x61]) == "a"
    ensures EscapeBytes(UriComponent, [0x29]) == ")"
    ensures EscapeBytes(UriComponent, [0x21]) == "!"
  {
  }
}

=== FILE: text.dfy ===
/**
 * Whitespace trimming and string length as the two runtimes see them.
 *
 * A `string` here is a sequence of Unicode scalar values. Query values reach
 * both programs through a UTF-8 decoder that replaces malformed input, so a
 * prompt never holds a lone surrogate.
 */
module Text {

  /** Which runtime's notion of whitespace a trim uses. */
  datatype Runtime = JavaScript | Python

  /**
   * ECMAScript WhiteSpace and LineTerminator code points: TAB, LF, VT, FF, CR,
   * SPACE, NBSP, U+1680, U+2000..U+200A, U+2028, U+2029, U+202F, U+205F,
   * U+3000 and U+FEFF. This is the set `String.prototype.trim` removes.
   */
  predicate IsJsWhitespace(c: char) {
    var n := c as int;
    (0x09 <= n <= 0x0D) || (0x2000 <= n <= 0x200A)
    || n in {0x20, 0xA0, 0x1680, 0x2028, 0x2029, 0x202F, 0x205F, 0x3000, 0xFEFF}
  }

  /**
   * The code points for which Python's `str.isspace` holds: U+0009..U+000D,
   * U+001C..U+001F, SPACE, U+0085, NBSP, U+1680, U+2000..U+200A, U+2028,
   * U+2029, U+202F, U+205F and U+3000. This is the set `str.strip()` removes.
   */
  predicate IsPyWhitespace(c: char) {
    var n := c as int;
    (0x09 <= n <= 0x0D) || (0x1C <= n <= 0x1F) || (0x2000 <= n <= 0x200A)
    || n in {0x20, 0x85, 0xA0, 0x1680, 0x2028, 0x2029, 0x202F, 0x205F, 0x3000}
  }

  predicate IsSpace(rt: Runtime, c: char) {
    match rt
    case JavaScript => IsJsWhitespace(c)
    case Python => IsPyWhitespace(c)
  }

  predicate AllSpace(rt: Runtime, s: string) {
    forall i :: 0 <= i < |s| ==> IsSpace(rt, s[i])
  }

  /** The first index at or after `i` that does not hold whitespace, or `|s|`. */
  function SkipSpace(rt: Runtime, s: string, i: nat): (k: nat)
    requires i <= |s|
    ensures i <= k <= |s|
    ensures forall j :: i <= j < k ==> IsSpace(rt, s[j])
    ensures k == |s| || !IsSpace(rt, s[k])
    decreases |s| - i
  {
    if i == |s| || !IsSpace(rt, s[i]) then i else SkipSpace(rt, s, i + 1)
  }

  /** The largest `k <= j` such that `s[k - 1]` is not whitespace, or 0. */
  function BackOverSpace(rt: Runtime, s: string, j: nat): (k: nat)
    requires j <= |s|
    ensures k <= j
    ensures forall i :: k <= i < j ==> IsSpace(rt, s[i])
    ensures k == 0 || !IsSpace(rt, s[k - 1])
  {
    if j == 0 || !IsSpace(rt, s[j - 1]) then j else BackOverSpace(rt, s, j - 1)
  }

  /**
   * Where the trimmed text starts and ends in `s`: only whitespace lies
   * outside the bounds, and the text inside, when there is any, neither
   * starts nor ends with whitespace.
   */
  function TrimBounds(rt: Runtime, s: string): (b: (nat, nat))
    ensures b.0 <= b.1 <= |s|
    ensures forall i :: 0 <= i < b.0 ==> IsSpace(rt, s[i])
    ensures forall i :: b.1 <= i < |s| ==> IsSpace(rt, s[i])
    ensures b.0 < b.1 ==> !IsSpace(rt, s[b.0]) && !IsSpace(rt, s[b.1 - 1])
  {
    var a := SkipSpace(rt, s, 0);
    if a == |s| then (a, a) else (a, BackOverSpace(rt, s, |s|))
  }

  /** `String.prototype.trim` (rt = JavaScript) and `str.strip()` (rt = Python). */
  function Trim(rt: Runtime, s: string): (r: string)
    ensures r == [] || (!IsSpace(rt, r[0]) && !IsSpace(rt, r[|r| - 1]))
  {
    var b := TrimBounds(rt, s);
    s[b.0..b.1]
  }

  /** A string trims to nothing exactly when every one of its characters is whitespace. */
  lemma TrimEmptyIffAllSpace(rt: Runtime, s: string)
    ensures Trim(rt, s) == [] <==> AllSpace(rt, s)
  {
    var b := TrimBounds(rt, s);
    if b.0 < b.1 {
      assert !IsSpace(rt, s[b.0]);
    }
  }

  /** Trimming keeps exactly one contiguous slice of the input, bordered by whitespace on both sides. */
  lemma TrimIsSlice(rt: Runtime, s: string)
    ensures var r := Trim(rt, s);
            exists i :: 0 <= i && i + |r| <= |s| && s[i..i + |r|] == r
                        && AllSpace(rt, s[..i]) && AllSpace(rt, s[i + |r|..])
  {
    var b := TrimBounds(rt, s);
    assert s[b.0..b.0 + |Trim(rt, s)|] == Trim(rt, s);
    assert AllSpace(rt, s[..b.0]);
    assert AllSpace(rt, s[b.1..]);
  }

  /** A string that neither starts nor ends with whitespace is its own trim. */
  lemma TrimKeepsUnpadded(rt: Runtime, s: string)
    requires s != [] && !IsSpace(rt, s[0]) && !IsSpace(rt, s[|s| - 1])
    ensures Trim(rt, s) == s
  {
    assert TrimBounds(rt, s).0 == 0;
    assert TrimBounds(rt, s).1 == |s|;
  }

  /** Trimming twice is trimming once. */
  lemma TrimIdempotent(rt: Runtime, s: string)
    ensures Trim(rt, Trim(rt, s)) == Trim(rt, s)
  {
    var r := Trim(rt, s);
    var b := TrimBounds(rt, r);
    if r != [] {
      assert b.0 == 0;
      assert b.1 == |r|;
    }
  }

  /** The number of UTF-16 code units a JavaScript string of these scalar values has: its `length`. */
  function Utf16Length(s: string): (n: nat)
    ensures |s| <= n <= 2 * |s|
    ensures n == |s| <==> forall i :: 0 <= i < |s| ==> s[i] as int < 0x1_0000
  {
    if s == [] then 0
    else (if s[0] as int < 0x1_0000 then 1 else 2) + Utf16Length(s[1..])
  }

  /** The UTF-16 code units of one scalar value: the value itself, or a surrogate pair (section 2.1 of RFC 2781). */
  function Utf16Char(c: char): (u: seq<int>)
    ensures |u| == 1 || |u| == 2
    ensures |u| == 1 <==> c as int < 0x1_0000
    ensures |u| == 1 ==> u[0] == c as int
    ensures |u| == 2 ==> 0xD800 <= u[0] < 0xDC00 <= u[1] < 0xE000
    ensures |u| == 2 ==> (u[0] - 0xD800) * 0x400 + (u[1] - 0xDC00) + 0x1_0000 == c as int
  {
    var n := c as int;
    if n < 0x1_0000 then [n]
    else [0xD800 + (n - 0x1_0000) / 0x400, 0xDC00 + (n - 0x1_0000) % 0x400]
  }

  /** The UTF-16 code units of a string, the representation whose size JavaScript reports. */
  function Utf16Units(s: string): seq<int> {
    if s == [] then [] else Utf16Char(s[0]) + Utf16Units(s[1..])
  }

  /** `Utf16Length` counts exactly the code units of the UTF-16 encoding. */
  lemma {:induction false} Utf16LengthCountsUnits(s: string)
    ensures Utf16Length(s) == |Utf16Units(s)|
  {
    if s != [] {
      Utf16LengthCountsUnits(s[1..]);
    }
  }

  /** The UTF-16 length of a concatenation is the sum of the lengths. */
  lemma {:induction false} Utf16LengthAppend(a: string, b: string)
    ensures Utf16Length(a + b) == Utf16Length(a) + Utf16Length(b)
    decreases |a|
  {
    if a == [] {
      assert a + b == b;
    } else {
      assert (a + b)[0] == a[0];
      assert (a + b)[1..] == a[1..] + b;
      Utf16LengthAppend(a[1..], b);
    }
  }
}

=== FILE: utf8.dfy ===
/**
 * UTF-8, the encoding both programs apply to a prompt before percent-encoding
 * it: `encodeURIComponent` encodes UTF-16 text as UTF-8, and
 * `urllib.parse.quote` encodes a `str` with `encoding='utf-8'`.
 */
module Utf8 {
  import opened Wrappers

  /** An octet. */
  type Byte = b: int | 0 <= b < 256

  /** The octets 0x80..0xBF that continue a multi-byte sequence. */
  predicate IsContinuation(b: Byte) {
    0x80 <= b < 0xC0
  }

  /** The UTF-8 encoding of one Unicode scalar value (section 3 of RFC 3629). */
  function EncodeChar(c: char): (r: seq<Byte>)
    ensures 1 <= |r| <= 4
    ensures |r| == 1 <==> c as int < 0x80
    ensures |r| == 1 ==> r[0] == c as int
    ensures |r| > 1 ==> r[0] >= 0xC0
    ensures forall i :: 1 <= i < |r| ==> IsContinuation(r[i])
  {
    var n := c as int;
    if n < 0x80 then [n]
    else if n < 0x800 then [0xC0 + n / 0x40, 0x80 + n % 0x40]
    else if n < 0x1_0000 then [0xE0 + n / 0x1000, 0x80 + (n / 0x40) % 0x40, 0x80 + n % 0x40]
    else [0xF0 + n / 0x4_0000, 0x80 + (n / 0x1000) % 0x40, 0x80 + (n / 0x40) % 0x40, 0x80 + n % 0x40]
  }

  /** The UTF-8 encoding of a string, one character after another. */
  function Encode(s: string): (r: seq<Byte>)
    ensures |s| <= |r| <= 4 * |s|
  {
    if s == [] then [] else EncodeChar(s[0]) + Encode(s[1..])
  }

  /** Encoding distributes over concatenation. */
  lemma {:induction false} EncodeAppend(a: string, b: string)
    ensures Encode(a + b) == Encode(a) + Encode(b)
    decreases |a|
  {
    if a == [] {
      assert a + b == b;
    } else {
      assert (a + b)[1..] == a[1..] + b;
      EncodeAppend(a[1..], b);
    }
  }

  /** An ASCII string encodes to its own code points, one octet each. */
  lemma {:induction false} EncodeAscii(s: string)
    requires forall i :: 0 <= i < |s| ==> s[i] as int < 0x80
    ensures |Encode(s)| == |s|
    ensures forall i :: 0 <= i < |s| ==> Encode(s)[i] == s[i] as int
  {
    if s != [] {
      EncodeAscii(s[1..]);
    }
  }

  /**
   * Reads one scalar value off the front of `bs`, strictly: overlong forms,
   * surrogates and values above U+10FFFF are rejected. Yields the character
   * and the number of octets it took.
   */
  function DecodeChar(bs: seq<Byte>): (r: Option<(char, nat)>)
    ensures r.Some? ==> 1 <= r.value.1 <= |bs|
  {
    if |bs| == 0 then None
    else
      var b0 := bs[0] as int;
      if b0 < 0x80 then Some((b0 as char, 1))
      else if 0xC2 <= b0 < 0xE0 then
        if |bs| < 2 || !IsContinuation(bs[1]) then None
        else Some((((b0 - 0xC0) * 0x40 + (bs[1] as int - 0x80)) as char, 2))
      else if 0xE0 <= b0 < 0xF0 then
        if |bs| < 3 || !IsContinuation(bs[1]) || !IsContinuation(bs[2]) then None
        else
          var n := (b0 - 0xE0) * 0x1000 + (bs[1] as int - 0x80) * 0x40 + (bs[2] as int - 0x80);
          if n < 0x800 || (0xD800 <= n < 0xE000) then None else Some((n as char, 3))
      else if 0xF0 <= b0 < 0xF5 then
        if |bs| < 4 || !IsContinuation(bs[1]) || !IsContinuation(bs[2]) || !IsContinuation(bs[3]) then None
        else
          var n := (b0 - 0xF0) * 0x4_0000 + (bs[1] as int - 0x80) * 0x1000 + (bs[2] as int - 0x80) * 0x40 + (bs[3] as int - 0x80);
          if n < 0x1_0000 || n >= 0x11_0000 then None else Some((n as char, 4))
      else None
  }

  /** Strict UTF-8 decoding of a whole octet string. */
  function Decode(bs: seq<Byte>): Option<string>
    decreases |bs|
  {
    if bs == [] then Some([])
    else match DecodeChar(bs)
      case None => None
      case Some((c, k)) =>
        match Decode(bs[k..])
        case None => None
        case Some(rest) => Some([c] + rest)
  }

  /** Decoding the front of an encoded character gives the character back and consumes exactly its octets. */
  lemma DecodeEncodeChar(c: char, rest: seq<Byte>)
    ensures DecodeChar(EncodeChar(c) + rest) == Some((c, |EncodeChar(c)|))
  {
    var n := c as int;
    if n < 0x80 {
    } else if n < 0x800 {
      DecodeTwo(c, rest);
    } else if n < 0x1_0000 {
      DecodeThree(c, rest);
    } else {
      DecodeFour(c, rest);
    }
  }

  lemma DecodeTwo(c: char, rest: seq<Byte>)
    requires 0x80 <= c as int < 0x800
    ensures DecodeChar(EncodeChar(c) + rest) == Some((c, 2))
  {
    var n := c as int;
    var hi, lo := n / 0x40, n % 0x40;
    assert hi * 0x40 + lo == n;
    var bs := EncodeChar(c) + rest;
    assert bs[0] == 0xC0 + hi && bs[1] == 0x80 + lo;
  }

  lemma DecodeThree(c: char, rest: seq<Byte>)
    requires 0x800 <= c as int < 0x1_0000
    ensures DecodeChar(EncodeChar(c) + rest) == Some((c, 3))
  {
    var n := c as int;
    var a, b, d := n / 0x1000, (n / 0x40) % 0x40, n % 0x40;
    assert a * 0x40 + b == n / 0x40;
    assert a * 0x1000 + b * 0x40 + d == n;
    var bs := EncodeChar(c) + rest;
    assert bs[0] == 0xE0 + a && bs[1] == 0x80 + b && bs[2] == 0x80 + d;
  }

  lemma DecodeFour(c: char, rest: seq<Byte>)
    requires 0x1_0000 <= c as int
    ensures DecodeChar(EncodeChar(c) + rest) == Some((c, 4))
  {
    var n := c as int;
    var a, b, d, e := n / 0x4_0000, (n / 0x1000) % 0x40, (n / 0x40) % 0x40, n % 0x40;
    assert n / 0x1000 == (n / 0x40) / 0x40;
    assert n / 0x4_0000 == (n / 0x1000) / 0x40;
    assert a * 0x40 + b == n / 0x1000;
    assert (n / 0x1000) * 0x40 + d == n / 0x40;
    assert a * 0x4_0000 + b * 0x1000 + d * 0x40 + e == n;
    var bs := EncodeChar(c) + rest;
    assert bs[0] == 0xF0 + a && bs[1] == 0x80 + b && bs[2] == 0x80 + d && bs[3] == 0x80 + e;
  }

  /** UTF-8 round trip: decoding the encoding of any string gives the string back. */
  lemma {:induction false} DecodeEncode(s: string)
    ensures Decode(Encode(s)) == Some(s)
  {
    if s != [] {
      var e := EncodeChar(s[0]);
      DecodeEncodeChar(s[0], Encode(s[1..]));
      assert (e + Encode(s[1..]))[|e|..] == Encode(s[1..]);
      DecodeEncode(s[1..]);
      assert [s[0]] + s[1..] == s;
    }
  }

  /** Encoding is injective: different strings never share an encoding. */
  lemma EncodeInjective(s: string, t: string)
    requires Encode(s) == Encode(t)
    ensures s == t
  {
    DecodeEncode(s);
    DecodeEncode(t);
  }
}

=== FILE: worker_replies.dfy ===
/**
 * The responses the Cloudflare worker (`image-generator.js`) sends: JSON
 * built by `jsonRes`, the model listing, an image passed through by
 * `imgRes`, and a 302 redirect.
 */
module WorkerReplies {
  import opened Wrappers
  import opened Utf8
  import opened Json

  datatype Response =
    | JsonResponse(status: int, body: seq<(string, Json)>)  // Content-Type: application/json
    | ImageResponse(image: seq<Byte>)                       // status 200, Content-Type: image/jpeg
    | RedirectResponse(status: int, location: string)       // Response.redirect(location, status)

  /** The HTTP status line of a response. */
  function StatusOf(r: Response): int {
    match r
    case JsonResponse(s, _) => s
    case ImageResponse(_) => 200
    case RedirectResponse(s, _) => s
  }

  /** The models the worker offers, in the order it lists them. */
  const Models: seq<string> := ["flux", "magicstudio", "creart-ai"]

  /** The attribution fields spread into every JSON body. */
  const DevInfo: seq<(string, Json)> :=
    [("developer", JStr("El Impaciente")), ("telegram_channel", JStr("https://t.me/Apisimpacientes"))]

  /** `jsonRes(msg, code = 400, extra = {})`: `{status_code, message, ...extra, ...DEV_INFO}` with HTTP status `code`. */
  function JsonRes(msg: string, code: int := 400, extra: seq<(string, Json)> := []): (r: Response)
    ensures r.JsonResponse? && r.status == code
    ensures "status_code" !in Keys(extra) ==> Get(r.body, "status_code") == Some(JInt(code))
    ensures "message" !in Keys(extra) ==> Get(r.body, "message") == Some(JStr(msg))
    ensures Get(r.body, "developer") == Some(JStr("El Impaciente"))
    ensures Get(r.body, "telegram_channel") == Some(JStr("https://t.me/Apisimpacientes"))
    ensures forall i :: 0 <= i < |extra| && extra[i].0 !in Keys(extra[i + 1..]) && extra[i].0 !in Keys(DevInfo) ==>
              Get(r.body, extra[i].0) == Some(extra[i].1)
  {
    var base := [("status_code", JInt(code)), ("message", JStr(msg))];
    var withExtra := Spread(base, extra);
    var body := Spread(withExtra, DevInfo);
    JsonResFields(base, extra, code, msg);
    DevInfoWins(withExtra);
    JsonResponse(code, body)
  }

  lemma JsonResFields(base: seq<(string, Json)>, extra: seq<(string, Json)>, code: int, msg: string)
    requires base == [("status_code", JInt(code)), ("message", JStr(msg))]
    ensures "status_code" !in Keys(extra) ==> Get(Spread(base, extra), "status_code") == Some(JInt(code))
    ensures "message" !in Keys(extra) ==> Get(Spread(base, extra), "message") == Some(JStr(msg))
    ensures forall i :: 0 <= i < |extra| && extra[i].0 !in Keys(extra[i + 1..]) ==>
              Get(Spread(base, extra), extra[i].0) == Some(extra[i].1)
  {
    SpreadGet(base, extra, "status_code");
    SpreadGet(base, extra, "message");
    forall i | 0 <= i < |extra| && extra[i].0 !in Keys(extra[i + 1..])
      ensures Get(Spread(base, extra), extra[i].0) == Some(extra[i].1)
    {
      SpreadGet(base, extra, extra[i].0);
    }
  }

  /** Spreading the attribution last makes it win over anything before it and leaves the other keys alone. */
  lemma DevInfoWins(m: seq<(string, Json)>)
    ensures Get(Spread(m, DevInfo), "developer") == Some(JStr("El Impaciente"))
    ensures Get(Spread(m, DevInfo), "telegram_channel") == Some(JStr("https://t.me/Apisimpacientes"))
    ensures forall k :: k !in Keys(DevInfo) ==> Get(Spread(m, DevInfo), k) == Get(m, k)
  {
    assert Keys(DevInfo) == ["developer", "telegram_channel"];
    assert DevInfo[1..] == [DevInfo[1]];
    assert DevInfo[2..] == [];
    SpreadGet(m, DevInfo, "developer");
    SpreadGet(m, DevInfo, "telegram_channel");
    forall k | k !in Keys(DevInfo)
      ensures Get(Spread(m, DevInfo), k) == Get(m, k)
    {
      SpreadGet(m, DevInfo, k);
    }
  }

  /** The `/models` reply: `{status_code: 200, available_models: MODELS, ...DEV_INFO}` with status 200. */
  function ModelsResponse(): (r: Response)
    ensures r.JsonResponse? && r.status == 200
    ensures Get(r.body, "status_code") == Some(JInt(200))
    ensures Get(r.body, "available_models") == Some(JArr([JStr("flux"), JStr("magicstudio"), JStr("creart-ai")]))
    ensures Get(r.body, "developer") == Some(JStr("El Impaciente"))
    ensures Get(r.body, "telegram_channel") == Some(JStr("https://t.me/Apisimpacientes"))
  {
    var listing := JArr([JStr(Models[0]), JStr(Models[1]), JStr(Models[2])]);
    var base := [("status_code", JInt(200)), ("available_models", listing)];
    DevInfoWins(base);
    assert Get(base, "status_code") == Some(JInt(200));
    assert Get(base, "available_models") == Some(listing) by {
      assert base[1..] == [("available_models", listing)];
    }
    JsonResponse(200, Spread(base, DevInfo))
  }

  /** `imgRes(buffer)`: the upstream bytes, status 200, as `image/jpeg`. */
  function ImgRes(buffer: seq<Byte>): (r: Response)
    ensures StatusOf(r) == 200 && r.ImageResponse? && r.image == buffer
  {
    ImageResponse(buffer)
  }
}

=== FILE: worker_router.dfy ===
/**
 * `handleRequest` of the worker: dispatch on the exact path, then the
 * checks of `/generate` and `/image` in source order, then either a reply,
 * a redirect to the pollinations image URL, or a call to `generateImage`.
 */
module WorkerRouter {
  import opened Wrappers
  import opened Json
  import opened Text
  import opened PercentEncoding
  import opened WorkerReplies
  import opened WorkerUpstream

  /** The parts of a request `handleRequest` reads: `url.pathname`, `request.method` and the decoded query values. */
  datatype Request = Request(path: string, httpMethod: string, prompt: Option<string>, model: Option<string>)

  /** What the handler does next: answer at once, or call a generator with the trimmed prompt. */
  datatype Step =
    | Reply(response: Response)
    | CallGenerator(prompt: string, model: string)

  /** A request's full exchange: the response and the upstream POST it made, if any. */
  datatype Exchange = Exchange(response: Response, upstream: Option<GeneratorPost>)

  const ParamsRequired: string := "The prompt and model parameters are required"
  const Usage: string := "Use /generate?prompt=your_description&model=model_name or /models to see available models"
  const OnlyGet: string := "Only GET requests are allowed"
  const TooLong: string := "The prompt parameter must be less than 2000 characters"
  const GenerationFailed: string := "Error generating the image. Please try again."
  const FluxOnly: string := "Direct image redirect only available for flux model"
  const MaxPromptUnits: nat := 2000

  const PollinationsPrefix: string := "https://image.pollinations.ai/prompt/"
  const FluxQuery: string := "?model=flux&width=1024&height=1024&nologo=true"

  /** `xs.join(sep)`. */
  function Join(xs: seq<string>, sep: string): string {
    if xs == [] then "" else if |xs| == 1 then xs[0] else xs[0] + sep + Join(xs[1..], sep)
  }

  function InvalidModel(): string {
    "Invalid model. Available models: " + Join(Models, ", ")
  }

  /** JavaScript truthiness of an optional string: present and non-empty. */
  predicate Truthy(v: Option<string>) {
    v.Some? && v.value != ""
  }

  /** `url.searchParams.get("prompt")?.trim()`. */
  function TrimmedPrompt(req: Request): Option<string> {
    match req.prompt
    case None => None
    case Some(p) => Some(Trim(JavaScript, p))
  }

  /**
   * The redirect target for `flux`: the prompt is one percent-encoded path
   * segment (no `/`, `?`, `&` or `#` inside it) between the fixed prefix and
   * query, and decoding that segment gives the prompt back.
   */
  function FluxImageUrl(prompt: string): (url: string)
    ensures |PollinationsPrefix| + |FluxQuery| <= |url|
    ensures var seg := url[|PollinationsPrefix|..|url| - |FluxQuery|];
            && url == PollinationsPrefix + seg + FluxQuery
            && (forall i :: 0 <= i < |seg| ==> seg[i] !in "/?&#")
            && PercentEncoding.Decode(seg) == Some(prompt)
  {
    var seg := PercentEncoding.Encode(UriComponent, prompt);
    var url := PollinationsPrefix + seg + FluxQuery;
    assert url[|PollinationsPrefix|..|url| - |FluxQuery|] == seg;
    ComponentIsOneSegment(prompt);
    PercentEncoding.DecodeEncode(UriComponent, prompt);
    url
  }

  /** What a route's checks decide, before any response is built. */
  datatype Decision =
    | Refuse(message: string)                 // jsonRes(message), status 400
    | RedirectToFlux(prompt: string)          // Response.redirect(FluxImageUrl(prompt), 302)
    | Generate(prompt: string, model: string) // generateImage(prompt, model)

  /**
   * The checks of `/generate`, in source order. Whatever gets past them has
   * a non-empty trimmed prompt of at most 2000 UTF-16 units and a listed
   * model; a non-GET request never does.
   */
  function GenerateDecision(req: Request): (d: Decision)
    ensures req.httpMethod != "GET" ==> d == Refuse(OnlyGet)
    ensures d.Refuse? ==> d.message in {OnlyGet, ParamsRequired, TooLong, InvalidModel()}
    ensures !d.Refuse? ==>
              && d.prompt == PromptText(req) && d.prompt != "" && Utf16Length(d.prompt) <= MaxPromptUnits
              && ModelText(req) in Models
    ensures d.RedirectToFlux? <==> !d.Refuse? && ModelText(req) == "flux"
    ensures d.Generate? ==> d.model == ModelText(req) && IsUpstreamModel(d.model)
  {
    if req.httpMethod != "GET" then Refuse(OnlyGet)
    else
      var prompt := TrimmedPrompt(req);
      if !Truthy(prompt) || !Truthy(req.model) then Refuse(ParamsRequired)
      else if Utf16Length(prompt.value) > MaxPromptUnits then Refuse(TooLong)
      else if req.model.value !in Models then Refuse(InvalidModel())
      else if req.model.value == "flux" then RedirectToFlux(prompt.value)
      else Generate(prompt.value, req.model.value)
  }

  /** The checks of `/image`, in source order: it never calls a generator, and only `flux` gets past them. */
  function ImageDecision(req: Request): (d: Decision)
    ensures req.httpMethod != "GET" ==> d == Refuse(OnlyGet)
    ensures !d.Generate?
    ensures d.Refuse? ==> d.message in {OnlyGet, ParamsRequired, FluxOnly}
    ensures d.RedirectToFlux? <==> req.httpMethod == "GET" && PromptText(req) != "" && ModelText(req) == "flux"
    ensures d.RedirectToFlux? ==> d.prompt == PromptText(req)
  {
    if req.httpMethod != "GET" then Refuse(OnlyGet)
    else
      var prompt := TrimmedPrompt(req);
      if !Truthy(prompt) || !Truthy(req.model) then Refuse(ParamsRequired)
      else if req.model.value == "flux" then RedirectToFlux(prompt.value)
      else Refuse(FluxOnly)
  }

  function Enact(d: Decision): Step {
    match d
    case Refuse(msg) => Reply(JsonRes(msg))
    case RedirectToFlux(p) => Reply(RedirectResponse(302, FluxImageUrl(p)))
    case Generate(p, m) => CallGenerator(p, m)
  }

  /** `handleRequest` up to the generator call. */
  function HandleRequest(req: Request): (s: Step)
    ensures s.CallGenerator? ==>
              && req.path == "/generate"
              && IsUpstreamModel(s.model)
              && 0 < |s.prompt| && Utf16Length(s.prompt) <= MaxPromptUnits
              && !IsSpace(JavaScript, s.prompt[0]) && !IsSpace(JavaScript, s.prompt[|s.prompt| - 1])
    ensures s.Reply? ==> StatusOf(s.response) in {302, 200, 400, 404}
  {
    if req.path == "/" || req.path == "" then Reply(JsonRes(ParamsRequired, 400, [("usage", JStr(Usage))]))
    else if req.path == "/models" then Reply(ModelsResponse())
    else if req.path == "/generate" then
      PromptTextHasNoPadding(req);
      Enact(GenerateDecision(req))
    else if req.path == "/image" then Enact(ImageDecision(req))
    else Reply(JsonRes("Not Found", 404))
  }

  /** The `try` block after `generateImage`: the image on success, the fixed 400 on any failure. */
  function AfterGenerator(outcome: FetchOutcome): (r: Response)
    ensures r.ImageResponse? <==> outcome.Answered? && IsOk(outcome.status)
    ensures r.ImageResponse? ==> r.image == outcome.body
    ensures !r.ImageResponse? ==> r == JsonRes(GenerationFailed)
  {
    match GeneratorResult(outcome)
    case Some(buffer) => ImgRes(buffer)
    case None => JsonRes(GenerationFailed)
  }

  /** The whole of `handleRequest`, given the random inputs and what the generator would answer. */
  function Serve(req: Request, ent: Entropy, outcome: FetchOutcome): (x: Exchange)
    ensures x.upstream.Some? <==> HandleRequest(req).CallGenerator?
  {
    match HandleRequest(req)
    case Reply(r) => Exchange(r, None)
    case CallGenerator(p, m) => Exchange(AfterGenerator(outcome), Some(GeneratorRequest(p, m, ent)))
  }

  // ---------------------------------------------------------------------
  // Dispatch on the path.
  // ---------------------------------------------------------------------

  lemma JoinModels()
    ensures InvalidModel() == "Invalid model. Available models: flux, magicstudio, creart-ai"
  {
    assert Models[1..] == ["magicstudio", "creart-ai"];
    assert Models[1..][1..] == ["creart-ai"];
    assert Join(["creart-ai"], ", ") == "creart-ai";
  }

  /** `/` and the empty path answer 400 with the usage hint, whatever the method or query. */
  lemma RootGivesUsage(req: Request)
    requires req.path == "/" || req.path == ""
    ensures var r := HandleRequest(req).response;
            && r.JsonResponse? && r.status == 400
            && Get(r.body, "message") == Some(JStr(ParamsRequired))
            && Get(r.body, "usage") == Some(JStr(Usage))
            && Get(r.body, "status_code") == Some(JInt(400))
  {
    UsageReply();
  }

  lemma UsageReply()
    ensures var r := JsonRes(ParamsRequired, 400, [("usage", JStr(Usage))]);
            && Get(r.body, "message") == Some(JStr(ParamsRequired))
            && Get(r.body, "usage") == Some(JStr(Usage))
            && Get(r.body, "status_code") == Some(JInt(400))
  {
    var extra := [("usage", JStr(Usage))];
    assert Keys(extra) == ["usage"];
    assert extra[1..] == [];
    assert Keys(extra[1..]) == [];
    assert "usage" !in Keys(DevInfo);
  }

  /** `/models` answers 200 with exactly the three models, whatever the method or query. */
  lemma ModelsListing(req: Request)
    requires req.path == "/models"
    ensures var r := HandleRequest(req).response;
            && r.JsonResponse? && r.status == 200
            && Get(r.body, "available_models") == Some(JArr([JStr("flux"), JStr("magicstudio"), JStr("creart-ai")]))
  {
  }

  /** Any other path than the five handled ones is a 404 `Not Found`. */
  lemma UnknownPathNotFound(req: Request)
    requires req.path !in {"/", "", "/models", "/generate", "/image"}
    ensures HandleRequest(req) == Reply(JsonRes("Not Found", 404))
    ensures HandleRequest(req).response.status == 404
  {
  }

  // ---------------------------------------------------------------------
  // The order of the checks on /generate.
  // ---------------------------------------------------------------------

  /** One validation: whether it passes, and the message of the 400 it gives when it does not. */
  datatype Check = Check(passes: bool, message: string)

  /** The trimmed prompt, or the empty string when the parameter is absent. */
  function PromptText(req: Request): string {
    if req.prompt.Some? then Trim(JavaScript, req.prompt.value) else ""
  }

  /** The trimmed prompt neither starts nor ends with JavaScript whitespace. */
  lemma PromptTextHasNoPadding(req: Request)
    ensures var p := PromptText(req);
            p == "" || (!IsSpace(JavaScript, p[0]) && !IsSpace(JavaScript, p[|p| - 1]))
  {
    if req.prompt.Some? {
      var p := Trim(JavaScript, req.prompt.value);
      assert PromptText(req) == p;
    }
  }

  function ModelText(req: Request): string {
    if req.model.Some? then req.model.value else ""
  }

  /** The `/generate` checks as a table, in the order the handler applies them. */
  function GenerateChecks(req: Request): seq<Check> {
    [ Check(req.httpMethod == "GET", OnlyGet),
      Check(PromptText(req) != "" && ModelText(req) != "", ParamsRequired),
      Check(Utf16Length(PromptText(req)) <= MaxPromptUnits, TooLong),
      Check(ModelText(req) in Models, InvalidModel()) ]
  }

  /** The `/image` checks, in order: the length and model-membership checks are absent. */
  function ImageChecks(req: Request): seq<Check> {
    [ Check(req.httpMethod == "GET", OnlyGet),
      Check(PromptText(req) != "" && ModelText(req) != "", ParamsRequired) ]
  }

  /** The message of the first check that fails, if one does. */
  function FirstFailure(checks: seq<Check>): Option<string> {
    if checks == [] then None
    else if !checks[0].passes then Some(checks[0].message)
    else FirstFailure(checks[1..])
  }

  /** `!prompt` after `?.trim()` holds exactly for an absent or all-whitespace prompt; `!model` for an absent or empty one. */
  lemma TruthyTrimmed(req: Request)
    ensures Truthy(TrimmedPrompt(req)) <==> req.prompt.Some? && !AllSpace(JavaScript, req.prompt.value)
    ensures Truthy(TrimmedPrompt(req)) <==> PromptText(req) != ""
    ensures Truthy(req.model) <==> req.model.Some? && req.model.value != ""
    ensures Truthy(req.model) <==> ModelText(req) != ""
  {
    if req.prompt.Some? {
      TrimEmptyIffAllSpace(JavaScript, req.prompt.value);
    }
  }

  /**
   * On `/generate` the first failing check decides the 400 and its message;
   * when all pass, `flux` redirects and the other two models call their
   * generator.
   */
  lemma GenerateFollowsCheckOrder(req: Request)
    ensures var f := FirstFailure(GenerateChecks(req));
            && (f.Some? ==> GenerateDecision(req) == Refuse(f.value))
            && (f.None? && ModelText(req) == "flux" ==> GenerateDecision(req) == RedirectToFlux(PromptText(req)))
            && (f.None? && ModelText(req) != "flux" ==> GenerateDecision(req) == Generate(PromptText(req), ModelText(req)))
  {
    TruthyTrimmed(req);
    var cs := GenerateChecks(req);
    var c1, c2, c3 := cs[1..], cs[2..], cs[3..];
    assert c1[1..] == c2 && c2[1..] == c3 && c3[1..] == [];
    assert FirstFailure(c3) == if cs[3].passes then None else Some(cs[3].message);
    assert FirstFailure(c2) == if cs[2].passes then FirstFailure(c3) else Some(cs[2].message);
    assert FirstFailure(c1) == if cs[1].passes then FirstFailure(c2) else Some(cs[1].message);
  }

  /** On `/image` the same first-failure rule holds with only the method and presence checks. */
  lemma ImageFollowsCheckOrder(req: Request)
    ensures var f := FirstFailure(ImageChecks(req));
            && (f.Some? ==> ImageDecision(req) == Refuse(f.value))
            && (f.None? && ModelText(req) == "flux" ==> ImageDecision(req) == RedirectToFlux(PromptText(req)))
            && (f.None? && ModelText(req) != "flux" ==> ImageDecision(req) == Refuse(FluxOnly))
  {
    TruthyTrimmed(req);
    var cs := ImageChecks(req);
    assert cs[1..][1..] == [];
    assert FirstFailure(cs[1..]) == if cs[1].passes then None else Some(cs[1].message);
  }

  /** A non-GET request to either route is refused before any parameter is looked at. */
  lemma MethodCheckedFirst(req: Request)
    requires req.httpMethod != "GET"
    ensures GenerateDecision(req) == Refuse(OnlyGet)
    ensures ImageDecision(req) == Refuse(OnlyGet)
  {
  }

  /** The length limit counts UTF-16 units of the trimmed prompt and admits exactly 2000. */
  lemma LengthLimitIsInclusive(req: Request)
    requires req.httpMethod == "GET" && PromptText(req) != "" && ModelText(req) == "flux"
    ensures GenerateDecision(req) == Refuse(TooLong) <==> Utf16Length(PromptText(req)) > 2000
    ensures Utf16Length(PromptText(req)) <= 2000 ==> GenerateDecision(req) == RedirectToFlux(PromptText(req))
  {
    TruthyTrimmed(req);
  }

  // ---------------------------------------------------------------------
  // The redirect and the upstream step.
  // ---------------------------------------------------------------------

  /** `flux` on `/generate` redirects with 302 and makes no upstream call. */
  lemma FluxMakesNoUpstreamCall(req: Request, ent: Entropy, outcome: FetchOutcome)
    requires req.path == "/generate" && GenerateDecision(req).RedirectToFlux?
    ensures Serve(req, ent, outcome) == Exchange(RedirectResponse(302, FluxImageUrl(PromptText(req))), None)
    ensures ModelText(req) == "flux"
  {
  }

  /**
   * For `magicstudio` and `creart-ai` the handler posts the form of that
   * model, and any failure of the call, a non-ok status included, becomes
   * the one fixed 400.
   */
  lemma UpstreamOutcomeMapping(req: Request, ent: Entropy, outcome: FetchOutcome)
    requires req.path == "/generate" && GenerateDecision(req).Generate?
    ensures ModelText(req) in {"magicstudio", "creart-ai"}
    ensures var x := Serve(req, ent, outcome);
            && x.upstream == Some(GeneratorRequest(PromptText(req), ModelText(req), ent))
            && (outcome.Answered? && IsOk(outcome.status) ==> x.response == ImageResponse(outcome.body))
            && (!(outcome.Answered? && IsOk(outcome.status)) ==>
                  x.response == JsonRes(GenerationFailed) && StatusOf(x.response) == 400)
  {
    GeneratorCallServed(req, ent, outcome);
  }

  /** A request that reaches the generator is served by `AfterGenerator`, after posting its model's form. */
  lemma GeneratorCallServed(req: Request, ent: Entropy, outcome: FetchOutcome)
    requires req.path == "/generate" && GenerateDecision(req).Generate?
    ensures IsUpstreamModel(ModelText(req))
    ensures Serve(req, ent, outcome)
            == Exchange(AfterGenerator(outcome), Some(GeneratorRequest(PromptText(req), ModelText(req), ent)))
  {
    var d := GenerateDecision(req);
    assert d == Generate(PromptText(req), ModelText(req));
    assert HandleRequest(req) == CallGenerator(d.prompt, d.model);
  }

  /** `/image` skips the length and membership checks: `flux` redirects as `/generate` would, any other model gets the flux-only 400. */
  lemma ImageSkipsTwoChecks(req: Request)
    requires req.httpMethod == "GET" && PromptText(req) != "" && ModelText(req) != ""
    ensures ModelText(req) == "flux" ==> ImageDecision(req) == RedirectToFlux(PromptText(req))
    ensures ModelText(req) != "flux" ==> ImageDecision(req) == Refuse(FluxOnly)
  {
    TruthyTrimmed(req);
  }

  /** Wherever `/generate` redirects, `/image` redirects to the same place. */
  lemma RoutesAgreeOnFlux(req: Request)
    requires GenerateDecision(req).RedirectToFlux?
    ensures ImageDecision(req) == GenerateDecision(req)
  {
  }

  /** A prompt of 2001 letters is refused by `/generate` and redirected by `/image`. */
  lemma OverlongPromptOnlyRedirectsOnImage()
    ensures var p := seq(2001, i => 'a');
            && GenerateDecision(Request("/generate", "GET", Some(p), Some("flux"))) == Refuse(TooLong)
            && ImageDecision(Request("/image", "GET", Some(p), Some("flux"))) == RedirectToFlux(p)
  {
    var p := seq(2001, i => 'a');
    TrimKeepsUnpadded(JavaScript, p);
    assert Utf16Length(p) == 2001;
  }

  /** A JSON reply whose `status_code` is its HTTP status and which names both attribution keys. */
  predicate CarriesStatus(r: Response) {
    r.JsonResponse? ==>
      && Get(r.body, "status_code") == Some(JInt(r.status))
      && Get(r.body, "developer") == Some(JStr("El Impaciente"))
      && Get(r.body, "telegram_channel") == Some(JStr("https://t.me/Apisimpacientes"))
  }

  lemma DecisionRepliesCarryStatus(d: Decision, outcome: FetchOutcome)
    ensures Enact(d).Reply? ==> CarriesStatus(Enact(d).response)
    ensures CarriesStatus(AfterGenerator(outcome))
  {
    if d.Refuse? {
      assert Enact(d).response == JsonRes(d.message);
    }
    if !(outcome.Answered? && IsOk(outcome.status)) {
      assert AfterGenerator(outcome) == JsonRes(GenerationFailed);
    }
  }

  /** Every JSON reply carries `status_code` equal to its HTTP status, and the attribution fields. */
  lemma JsonRepliesCarryStatus(req: Request, ent: Entropy, outcome: FetchOutcome)
    ensures var r := Serve(req, ent, outcome).response;
            r.JsonResponse? ==>
              && Get(r.body, "status_code") == Some(JInt(r.status))
              && Get(r.body, "developer") == Some(JStr("El Impaciente"))
              && Get(r.body, "telegram_channel") == Some(JStr("https://t.me/Apisimpacientes"))
  {
    var r := Serve(req, ent, outcome).response;
    if req.path == "/" || req.path == "" {
      assert r == JsonRes(ParamsRequired, 400, [("usage", JStr(Usage))]);
      UsageReply();
      assert CarriesStatus(r);
    } else if req.path == "/models" {
      assert r == ModelsResponse();
      assert CarriesStatus(r);
    } else if req.path != "/generate" && req.path != "/image" {
      assert r == JsonRes("Not Found", 404);
      assert CarriesStatus(r);
    } else {
      var d := if req.path == "/generate" then GenerateDecision(req) else ImageDecision(req);
      assert HandleRequest(req) == Enact(d);
      DecisionRepliesCarryStatus(d, outcome);
      assert CarriesStatus(r);
    }
  }
}

=== FILE: worker_upstream.dfy ===
/**
 * How the worker calls a third-party generator for the `magicstudio` and
 * `creart-ai` models (`createFormData` and `generateImage`). The random
 * inputs arrive as an `Entropy` value; the POST itself and its outcome are
 * the caller's to perform and report.
 */
module WorkerUpstream {
  import opened Wrappers
  import opened Utf8
  import opened Multipart
  import Base64

  /**
   * The values `createFormData` draws at random or from the clock:
   * `Math.random().toString(36).slice(2)`, `crypto.randomUUID()`,
   * `(Date.now() / 1000).toFixed(3)` and `crypto.getRandomValues(new Uint8Array(32))`.
   */
  datatype Entropy = Entropy(
    boundarySuffix: string,
    anonymousUserId: string,
    requestTimestamp: string,
    clientIdOctets: seq<Byte>)

  /** The two field layouts `createFormData` knows. */
  datatype Api = Magic | Creart

  const BoundaryPrefix: string := "----WebKitFormBoundary"

  function Boundary(ent: Entropy): string {
    BoundaryPrefix + ent.boundarySuffix
  }

  /** The `magic` fields, in the order of the object literal. */
  function MagicFields(prompt: string, ent: Entropy): (fs: seq<Field>)
    ensures |fs| == 7 && fs[0] == Field("prompt", prompt)
    ensures fs[6].name == "client_id" && fs[6].value == Base64.UrlEncodeNoPad(ent.clientIdOctets)
  {
    [ Field("prompt", prompt),
      Field("output_format", "bytes"),
      Field("user_profile_id", "null"),
      Field("anonymous_user_id", ent.anonymousUserId),
      Field("request_timestamp", ent.requestTimestamp),
      Field("user_is_subscribed", "false"),
      Field("client_id", Base64.ClientId(ent.clientIdOctets).value) ]
  }

  /** The `creart` fields; `guidance_scale: 9.5` is rendered by the template literal as `9.5`. */
  function CreartFields(prompt: string): (fs: seq<Field>)
    ensures |fs| == 6 && fs[0] == Field("prompt", prompt)
  {
    [ Field("prompt", prompt),
      Field("input_image_type", "text2image"),
      Field("input_image_base64", ""),
      Field("negative_prompt", ""),
      Field("aspect_ratio", "1x1"),
      Field("guidance_scale", "9.5") ]
  }

  /** `createFormData(prompt, api)`: any `api` other than `"magic"` takes the `creart` layout. */
  function CreateFormData(prompt: string, api: Api, ent: Entropy): (form: FormData)
    ensures form.contentType == ContentTypePrefix + Boundary(ent)
    ensures |PartHead(Boundary(ent), "prompt")| + |prompt| + 2 <= |form.body|
    ensures form.body[..|PartHead(Boundary(ent), "prompt")| + |prompt| + 2] == Part(Boundary(ent), Field("prompt", prompt))
    ensures |CloseDelimiter(Boundary(ent))| <= |form.body|
    ensures form.body[|form.body| - |CloseDelimiter(Boundary(ent))|..] == CloseDelimiter(Boundary(ent))
  {
    var fields := match api
      case Magic => MagicFields(prompt, ent)
      case Creart => CreartFields(prompt);
    PartAt(Boundary(ent), fields, 0);
    assert fields[..0] == [];
    Multipart.CreateFormData(Boundary(ent), fields)
  }

  /** The POST `generateImage` sends. Request headers other than `Content-Type` are not modelled. */
  datatype GeneratorPost = GeneratorPost(url: string, contentType: string, body: string)

  /** The models that go through `generateImage`; `flux` never does. */
  predicate IsUpstreamModel(model: string) {
    model == "magicstudio" || model == "creart-ai"
  }

  /** `apis[model].url`. */
  function Endpoint(model: string): string
    requires IsUpstreamModel(model)
  {
    if model == "magicstudio" then "https://ai-api.magicstudio.com/api/ai-art-generator"
    else "https://api.creartai.com/api/v1/text2image"
  }

  /** The request `generateImage(prompt, model)` sends: the `magic` layout for `magicstudio`, the `creart` one otherwise. */
  function GeneratorRequest(prompt: string, model: string, ent: Entropy): (p: GeneratorPost)
    requires IsUpstreamModel(model)
    ensures p.url == "https://ai-api.magicstudio.com/api/ai-art-generator" <==> model == "magicstudio"
    ensures p.url == "https://api.creartai.com/api/v1/text2image" <==> model == "creart-ai"
    ensures p.contentType == ContentTypePrefix + Boundary(ent)
    ensures |PartHead(Boundary(ent), "prompt")| + |prompt| + 2 <= |p.body|
    ensures p.body[..|PartHead(Boundary(ent), "prompt")| + |prompt| + 2] == Part(Boundary(ent), Field("prompt", prompt))
  {
    var form := CreateFormData(prompt, if model == "magicstudio" then Magic else Creart, ent);
    GeneratorPost(Endpoint(model), form.contentType, form.body)
  }

  /** What came back from the `fetch`: a response, or a rejection (network error, the 60 s abort, a failed body read). */
  datatype FetchOutcome =
    | Answered(status: int, body: seq<Byte>)
    | Rejected

  /** `res.ok`. */
  predicate IsOk(status: int) {
    200 <= status <= 299
  }

  /** `generateImage` after its POST: the bytes on an ok status, otherwise the error it throws (`API error <status>` or the rejection). */
  function GeneratorResult(outcome: FetchOutcome): (r: Option<seq<Byte>>)
    ensures r.Some? <==> outcome.Answered? && IsOk(outcome.status)
    ensures r.Some? ==> r.value == outcome.body
  {
    match outcome
    case Answered(status, body) => if IsOk(status) then Some(body) else None
    case Rejected => None
  }

  /** The `magicstudio` model posts the seven `magic` fields to its endpoint, with a `client_id` free of `+`, `/` and `=`. */
  lemma MagicstudioUsesMagicFields(prompt: string, ent: Entropy)
    ensures var p := GeneratorRequest(prompt, "magicstudio", ent);
            && p.url == "https://ai-api.magicstudio.com/api/ai-art-generator"
            && p.body == Multipart.CreateFormData(Boundary(ent), MagicFields(prompt, ent)).body
    ensures var id := MagicFields(prompt, ent)[6].value;
            forall i :: 0 <= i < |id| ==> id[i] !in "+/="
  {
    Base64.ClientIdAlphabet(ent.clientIdOctets);
  }

  /** The `creart-ai` model posts the six `creart` fields to its endpoint. */
  lemma CreartUsesCreartFields(prompt: string, ent: Entropy)
    ensures var p := GeneratorRequest(prompt, "creart-ai", ent);
            && p.url == "https://api.creartai.com/api/v1/text2image"
            && p.body == Multipart.CreateFormData(Boundary(ent), CreartFields(prompt)).body
  {
  }
}

=== FILE: wrappers.dfy ===
/** Failure-carrying values shared by every module of the model. */
module Wrappers {

  /** A value that may be absent: an unset query parameter, a failed decode. */
  datatype Option<+T> = None | Some(value: T)

  /** The outcome of a step that either produces a value or fails with an error. */
  datatype Result<+R, +E> = Ok(value: R) | Err(error: E)
}
